=== FILE: README.md ===
# FOMC hawkish/dovish pipeline: a Dafny model of its data logic

The repository scores Federal Reserve texts with a hawkish (or dovish) word
list. It then relates the changes of that score to moves in market
instruments. This project models the pure data logic of that pipeline and
proves properties of it:

- **Tone scorer** (`get_hawkish_dovish_score`, modules `Text` and `ToneScore`).
  - It keeps the `.txt` files in listing order.
  - It lower-cases and whitespace-splits each text.
  - It counts every stripped lexicon line in every document.
  - It weights the counts with the code's own TF-IDF, `(1 + ln c) / (1 + ln total)` times `ln(N / df)`.
  - Each document's score is the sum of `tf * idf * count`.
  - The natural logarithm is a parameter `ln`. Only `ln(1) = 0`, positivity above 1 and monotonicity on `[1, ∞)` are assumed (`ToneScore.IsLog`); nothing is assumed below 1.
- **File-name dates** (`extract_date_from_filename`, modules `Calendar` and `DateExtraction`).
  - The leftmost run of eight digits is read as `YYYYMMDD`.
  - In `src/regression_analysis.py` only, a `YYYY-MM-DD` fallback is tried when no such run exists.
  - A match that is not a calendar date gives no date.
- **Market table** (`load_market_data`, module `MarketChanges`).
  - One price per sheet: `PX_MID` for `GT10` and `GT2`, `PX_LAST` otherwise.
  - Sheets are outer-merged on date, sorted and forward-filled.
  - Each instrument gets a percentage change and an absolute change.
  - Rows with a missing value are dropped.
- **Score-change series** (`perform_market_analysis`, module `ScoreChanges`).
  - Each scored document is dated from its file name.
  - Its score change is taken from the document listed just before it: absolute, and relative with infinities made missing.
  - Then `dropna` is applied.
- **Event window** (`run_regression_compute_stats`, module `EventWindow`).
  - For each row with a score change, the market variable is summed over the first `window` rows dated on or after it that carry a market value. When fewer such rows exist there is no value.
  - The observations with both values present form the regression sample. An empty sample stops the analysis.
- **Date join** (`run_regression_and_plot`, module `DateJoin`).
  - The score changes are inner-joined with the market table on the date.
  - An empty join stops the analysis.

Missing values (pandas `NaN`, `NaT`, `None`) are `Option.None`. Failures the
code raises are `Result.Failure`:
- a duplicated lexicon line makes pandas reject the count table, when at least one `.txt` file is listed;
- an empty workbook fails at `instruments[0]`.

## Model

| member | source | states |
|---|---|---|
| Text.Lower | src/dictionary_based_analysis.py:35 | lower-casing keeps the length and every whitespace position, leaves no capital, changes nothing but capitals, and turns each capital into the small letter 32 code points above it |
| Text.LowerIdempotent | src/dictionary_based_analysis.py:35 | lower-casing lower-cased text changes nothing |
| Text.Split | src/dictionary_based_analysis.py:37 | every token of `split()` is non-empty and whitespace-free, and there are no more tokens than characters |
| Text.SplitJoin | src/dictionary_based_analysis.py:37 | splitting the space-joined list of tokens gives exactly those tokens back |
| Text.SplitAtSpace | src/dictionary_based_analysis.py:37 | `split()` cuts at every whitespace character: the tokens around one are the left part's tokens followed by the right part's |
| Text.SplitToken | src/dictionary_based_analysis.py:37 | a non-empty whitespace-free string splits into itself alone |
| Text.Strip | src/dictionary_based_analysis.py:21 | `strip()` returns the infix left after cutting only whitespace from both ends; it is empty exactly for all-whitespace lines and otherwise starts and ends with non-whitespace |
| Text.StripIdempotent | src/dictionary_based_analysis.py:21 | stripping a stripped lexicon line changes nothing |
| Text.Occurrences | src/dictionary_based_analysis.py:37-44 | the `Counter` lookup equals the multiplicity of the word among the tokens and never exceeds the token count |
| Text.NonTokenNeverCounted | src/dictionary_based_analysis.py:37-44 | an empty or whitespace-holding string occurs zero times among the tokens of any text |
| ToneScore.TxtFiles | src/dictionary_based_analysis.py:30 | the kept files are exactly the listed files whose name ends in `.txt` |
| ToneScore.TxtFilesAppend | src/dictionary_based_analysis.py:30 | the filter keeps listing order: filtering a concatenation concatenates the filtered parts |
| ToneScore.CountRow | src/dictionary_based_analysis.py:43-44 | cell `j` of a document's row is the multiplicity of the lower-cased term `j` among its tokens, at most the document's token count |
| ToneScore.CountMatrix | src/dictionary_based_analysis.py:33-50 | one row per document; `Total_Words` is the token count of the lower-cased text; every count is the term's multiplicity and bounded by the total |
| ToneScore.PhraseNeverCounted | src/dictionary_based_analysis.py:35-44 | a lexicon term that is a multi-word phrase or empty counts 0 in every document |
| ToneScore.DocFreq | src/dictionary_based_analysis.py:64-71 | the document frequency never exceeds the number of documents |
| ToneScore.Tf | src/dictionary_based_analysis.py:68-70 | tf lies in [0, 1] and is positive exactly when the count is, so the denominator `1 + ln(total)` is at least 1 and zero cells stay zero |
| ToneScore.Idf | src/dictionary_based_analysis.py:74 | idf is non-negative, and zero exactly when the term occurs in no document or in every document |
| ToneScore.RowScore | src/dictionary_based_analysis.py:75-85 | a document's weighted sum is non-negative, and zero exactly when each term is absent or has idf 0 |
| ToneScore.RowScoreAppend | src/dictionary_based_analysis.py:75-85 | the score of a row is additive over its terms: scoring a concatenation of terms adds the scores of the parts |
| ToneScore.RowScoreSingle | src/dictionary_based_analysis.py:75-85 | a single term contributes its tf times its idf times its raw count again, so with `RowScoreAppend` a score is the sum of `tf * idf * count` over the terms |
| ToneScore.Score | src/dictionary_based_analysis.py:20-88 | fails exactly when two lexicon lines strip to the same term and a `.txt` file exists; otherwise one non-negative score per `.txt` file, indexed by its name in listing order, under `Weighted_<polarity>ish_Sum` |
| ToneScore.RowZeroIff | src/dictionary_based_analysis.py:66-85 | on a count table, a row scores 0 exactly when each of its terms is absent from it or present in every row |
| ToneScore.ScoreZeroIff | src/dictionary_based_analysis.py:66-85 | a document scores 0 exactly when each lexicon term is absent from it or occurs in every document |
| ToneScore.RowPositive | src/dictionary_based_analysis.py:66-85 | on a count table, a row holding a term that another row lacks scores strictly positive |
| ToneScore.RareTermScoresPositive | src/dictionary_based_analysis.py:66-85 | with distinct lexicon terms, a document whose tokens hold a term that some other document lacks scores strictly positive |
| ToneScore.NoMatchScoresZero | src/dictionary_based_analysis.py:82-85 | a document with no lexicon match scores exactly 0 |
| ToneScore.SingleDocumentScoresZero | src/dictionary_based_analysis.py:74-75 | with a single `.txt` file every occurring term has idf `ln(1) = 0`, so the score is 0 |
| ToneScore.TfRow | src/dictionary_based_analysis.py:67-71 | one pass over a document's row yields its tf values and adds that document to the frequency of each term it contains |
| ToneScore.TfAndDocFreq | src/dictionary_based_analysis.py:63-71 | the nested loop yields every row's tf values, and for each term the number of documents containing it |
| Calendar.DaysInMonth | src/results.py:189 | months have 28 to 31 days, and 29 exactly for February of a Gregorian leap year |
| DateExtraction.Search | src/results.py:187 | `re.search` finds a match position with no match before it, or reports that none exists |
| DateExtraction.DateAt | src/results.py:189 | a coerced parse gives a date exactly when the match's year, month and day fields name a valid calendar date, and then that very date; otherwise no date |
| DateExtraction.ExtractDate | src/results.py:179-190 | a returned date is valid and the name has an eight-digit run; a name without one gets no date |
| DateExtraction.ExtractDateOrDashed | src/regression_analysis.py:236-254 | a returned date is valid; where an eight-digit run exists the result is that of the eight-digit-only variant, invalid runs included; with neither pattern present there is no date |
| DateExtraction.LeftmostCompactDecides | src/regression_analysis.py:246-248 | the leftmost eight-digit run alone decides the date in both variants |
| DateExtraction.LeftmostDashedDecides | src/regression_analysis.py:250-253 | without an eight-digit run, the leftmost `YYYY-MM-DD` decides the fallback variant and the other variant gives no date |
| DateExtraction.NoDigitNoDate | src/regression_analysis.py:254 | a name without digits gets no date in either variant |
| DateExtraction.CompactRoundTrip | src/results.py:184-189 | writing a valid date as `YYYYMMDD` after a digit-free prefix and reading it back gives the same date in both variants |
| DateExtraction.CompactFieldsRead | src/results.py:184-189 | for any year, month and day written as `YYYYMMDD` after a digit-free prefix, both variants give that date when it is a valid calendar date and no date when it is not |
| DateExtraction.DashedFieldsRead | src/regression_analysis.py:243-253 | for any fields written as `YYYY-MM-DD` between digit-free parts, the fallback variant gives that date when valid and no date when not; the eight-digit-only variant gives no date |
| DateExtraction.DashedRoundTrip | src/regression_analysis.py:243-253 | a valid date written as `YYYY-MM-DD` between digit-free parts is read back by the fallback variant and ignored by the eight-digit-only one |
| DateExtraction.DocumentedCompactExample | src/regression_analysis.py:240-243 | `FOMCpresconf20120425.txt` gives 2012-04-25 in both variants |
| DateExtraction.DocumentedDashedExample | src/regression_analysis.py:240-243 | `1995-02-01_Minutes.txt` gives 1995-02-01 with the fallback and no date without it |
| DateExtraction.UndatedExample | src/results.py:190 | a digit-free name gets no date |
| DateExtraction.InvalidRunExample | src/regression_analysis.py:246-248 | an invalid eight-digit run gives no date even when a valid dashed date follows |
| MarketChanges.Insert | src/regression_analysis.py:51-61 | adding a date keeps the list strictly ascending and adds exactly that date |
| MarketChanges.SortedDates | src/regression_analysis.py:51-61 | the merged dates are strictly ascending and are exactly the input dates |
| MarketChanges.SheetDates | src/regression_analysis.py:51-53 | the outer merge keeps a date exactly when some sheet has it |
| MarketChanges.Lookup | src/regression_analysis.py:42-53 | a sheet gives no price for a date it lacks, and its picked price (`PX_MID` for the Treasury sheets, else `PX_LAST`) for a date it has |
| MarketChanges.FFill | src/regression_analysis.py:64 | present values are kept, a missing value repeats the filled value above it, and a leading missing value stays missing |
| MarketChanges.FFillFindsLatest | src/regression_analysis.py:64 | a filled cell is missing exactly when everything up to it was missing, and otherwise holds the latest present value at or before it |
| MarketChanges.Levels | src/regression_analysis.py:40-64 | the level table has every sheet date once, strictly ascending, and one forward-filled column per sheet holding the sheet's price on its own dates; with no zero prices no level is zero |
| MarketChanges.Column | src/regression_analysis.py:42-64 | one sheet's forward-filled column over the merged dates: its own price on its own dates, the row before's value otherwise, missing before its first price, never zero when the sheet has no zero price |
| MarketChanges.Diff | src/regression_analysis.py:77 | the absolute change exists exactly when both levels do, and adding it to the previous level gives the level |
| MarketChanges.PctChange | src/regression_analysis.py:76 | the percentage change exists exactly when both levels do, and the previous level times one plus it gives the level |
| MarketChanges.DropNa | src/regression_analysis.py:83 | the kept rows are exactly the rows without a missing value, never more than the input |
| MarketChanges.DropNaAppend | src/regression_analysis.py:83 | dropping keeps row order and multiplicity: dropping from a concatenation concatenates the dropped parts, and a single row is kept, with its values, exactly when it has no missing value |
| MarketChanges.CompleteIff | src/regression_analysis.py:74-83 | a change row is complete exactly when every instrument has a level on that row and on the row before |
| MarketChanges.CompletePersists | src/regression_analysis.py:64-83 | after forward filling, every row after a complete row is complete |
| MarketChanges.Moves | src/regression_analysis.py:66-83 | the returned rows are the level table's rows from the first complete one to the end, each with one percentage and one absolute change per instrument |
| MarketChanges.MovesDates | src/regression_analysis.py:61-83 | the returned dates are dates of the level table in strictly ascending order |
| MarketChanges.LoadMarketData | src/regression_analysis.py:24-94 | fails exactly on an empty workbook; otherwise every row has one change of each kind per sheet, dates strictly ascend, and each date comes from some sheet |
| MarketChanges.CompoundIsProduct | src/regression_analysis.py:76 | compounding by percentage changes step by step is scaling by the product of the growth factors |
| MarketChanges.AbsStep | src/results.py:75-81 | every returned row's absolute change steps the previous level to its own level |
| MarketChanges.PctStep | src/results.py:74-81 | every returned row's percentage change grows the previous level into its own level |
| MarketChanges.AbsChangesRebuildLevels | src/results.py:59-81 | summing the returned absolute changes onto the level before the first returned row rebuilds every later level |
| MarketChanges.PctChangesRebuildLevels | src/regression_analysis.py:61-83 | compounding that level by the returned percentage changes rebuilds every later level |
| ScoreChanges.Dates | src/results.py:210 | one date per document; a present date is a real calendar date read from an eight-digit run of the name, or from a dashed run only under the fallback rule; a name with no run the rule reads gets no date |
| ScoreChanges.ChangeAt | src/results.py:213-220 | a row survives exactly when it is not the first, has a date, and the previous score is non-zero; it then keeps its name, score and date, and its absolute change steps the previous score to its own |
| ScoreChanges.PctChangeCompounds | src/results.py:214 | a kept row's relative change grows the previous score into its own |
| ScoreChanges.ToneChanges | src/results.py:210-220 | the change table holds exactly the rows `ChangeAt` keeps, never more than the documents |
| ScoreChanges.ChangesFromSnoc | src/results.py:210-220 | listing one more document leaves the earlier changes as they were, in order, and appends at most the new document's change |
| ScoreChanges.ToneChangesSnoc | src/results.py:210-220 | the change table is in listing order: appending a document to the listing appends at most its own change to the table |
| ScoreChanges.FirstRowDropped | src/results.py:219-220 | with at most one document the change table is empty |
| ScoreChanges.OnlyFirstRowDropped | src/results.py:213-220 | when every name is dated and no score but the last is zero, only the first row is lost and row `i` is the change into document `i + 1` |
| ScoreChanges.UndatedStillPrevious | src/results.py:210-220 | an undated document is dropped yet still serves as the previous row of the next document |
| ScoreChanges.RulesAgreeOnCompactNames | src/regression_analysis.py:279-289 | when every name holds an eight-digit run the two extractors give the same change table |
| EventWindow.EligibleMembers | src/regression_analysis.py:151 | the counted values are exactly the market values of rows dated on or after the event that have a market value |
| EventWindow.CumulativeAt | src/regression_analysis.py:147-161 | a row gets a cumulative change exactly when it has a score change and at least `window` values are counted for its date |
| EventWindow.Cumulative | src/regression_analysis.py:146-164 | one cumulative entry per merged row; it is missing on every row without a score change, and on a row with one it is present exactly when `window` market values are counted for its date |
| EventWindow.WindowGrows | src/regression_analysis.py:153-155 | a window that can be filled can be filled one shorter, and widening it adds the next counted value |
| EventWindow.EmptyWindow | src/regression_analysis.py:153-155 | a window of size 0 sums to 0 for every row with a change |
| EventWindow.NoChangeNoCumulative | src/regression_analysis.py:160-161 | rows without a score change never get a cumulative change |
| EventWindow.NaTEventNeverFilled | src/regression_analysis.py:148-157 | an event with no date counts nothing, so a non-empty window is never filled for it |
| EventWindow.EventDayCounted | src/regression_analysis.py:150-151 | the event row's own market value, if any, is counted |
| EventWindow.SortedWindowIsTail | src/regression_analysis.py:140-155 | in a date-sorted table the counted values are the market values of a contiguous tail starting at the event's date |
| EventWindow.WindowSum | src/regression_analysis.py:151-157 | the early-exit pass gives a value exactly when at least `window` values are counted, and then the sum of the first `window` of them, never a partial sum |
| EventWindow.CumulativeChanges | src/regression_analysis.py:143-164 | the loop over the merged table builds exactly the cumulative column |
| EventWindow.ObservationsMembers | src/regression_analysis.py:170 | the observations are exactly the pairs of change and cumulative change of rows where both are present |
| EventWindow.ObservationsAppend | src/regression_analysis.py:170 | dropping keeps row order and multiplicity: dropping from a concatenation concatenates the dropped parts |
| EventWindow.ObservationsSingle | src/regression_analysis.py:170 | one row gives one observation, with its change and cumulative change, exactly when both are present, and nothing otherwise |
| EventWindow.RegressionSample | src/regression_analysis.py:166-179 | there is no sample exactly when no row gets a cumulative change; otherwise it is the whole cumulative table after dropping, so each observation pairs a row's change with its window sum and every filled row contributes its observation |
| DateJoin.InnerJoinMembers | src/results.py:125 | a joined row exists exactly for each score change and market row that share a date, and carries the relative change and the market value |
| DateJoin.InnerJoinAppend | src/results.py:125 | the join keeps the order of the score-change rows |
| DateJoin.AtMostOneMatch | src/results.py:125 | with one market row per date a score change yields at most one joined row, and exactly one when its date is in the market table |
| DateJoin.JoinNoLongerThanChanges | src/results.py:125 | with one market row per date the join is no longer than the score-change table |
| DateJoin.LoadedMarketHasOneRowPerDate | src/results.py:49-81 | the loaded market table has one row per date |
| DateJoin.RegressionSample | src/results.py:124-142 | no sample exactly when no score change shares a date with a market row; otherwise the whole inner join: every pair sharing a date is in it, and each joined row comes from such a pair |

## Left out

- File and workbook I/O. This covers `open`, `os.listdir`, `read_excel`, `read_csv` and `to_csv`. Inputs are in-memory sequences in listing or workbook order.
- Printing, warnings, `os.makedirs` and all plotting.
- The OLS fit and the statistics returned after it. These are statsmodels calls, so the model stops at the sample handed to the fit.
- Floating point. Arithmetic is over `real`, and NaN and infinities are `None`. `ln` is a parameter bound only by the laws of `ToneScore.IsLog`, which are the only ones the scorer needs on its arguments (all at least 1).
- MarketChanges.LoadMarketData: requires each sheet to have distinct dates and no zero picked price.
  - On a repeated date the outer merge would multiply rows.
  - A zero level gives an infinite percentage change that `dropna` keeps.
  - Neither case is modelled.
- MarketChanges.PctChange: requires the previous level to be non-zero when it is present; a zero previous level, where `pct_change()` gives an infinite change (kept by `dropna`, since it is not NaN) or NaN for 0/0, is excluded, because `real` has no infinity.
- MarketChanges.ChangeRowAt: requires `NonZero` (every present level non-zero), for the same reason as `MarketChanges.PctChange`.
- MarketChanges.ChangeTable: requires `NonZero` (every present level non-zero), for the same reason as `MarketChanges.PctChange`.
- MarketChanges.CompleteIff: requires `NonZero` (every present level non-zero), for the same reason as `MarketChanges.PctChange`.
- MarketChanges.FirstComplete: requires `NonZero` (every present level non-zero), for the same reason as `MarketChanges.PctChange`.
- MarketChanges.CompletePersists: requires `NonZero` (every present level non-zero), for the same reason as `MarketChanges.PctChange`.
- MarketChanges.Moves: requires `NonZero` (every present level non-zero), for the same reason as `MarketChanges.PctChange`.
- MarketChanges.MovesDates: requires `NonZero` (every present level non-zero), for the same reason as `MarketChanges.PctChange`.
- MarketChanges.AbsStep: requires `NonZero` (every present level non-zero), for the same reason as `MarketChanges.PctChange`.
- MarketChanges.PctStep: requires `NonZero` (every present level non-zero), for the same reason as `MarketChanges.PctChange`.
- MarketChanges.AbsChangesRebuildLevels: requires `NonZero` (every present level non-zero), for the same reason as `MarketChanges.PctChange`.
- MarketChanges.PctChangesRebuildLevels: requires `NonZero` (every present level non-zero), for the same reason as `MarketChanges.PctChange`.
- MarketChanges.LoadMarketData: sheet rows carry a date; `NaT` dates inside a sheet, a missing price column and the Excel date parsing are not modelled.
- MarketChanges.Moves: instruments are addressed by sheet position, not by the `<sheet>_pct_change` and `<sheet>_abs_change` column names.
- The outer merge and the date sort of `run_regression_compute_stats` (src/regression_analysis.py:133-140) are not modelled. `EventWindow` takes the merged table as given, with `NaT` dates possible.
- EventWindow.CumulativeAt: states when a value exists, not the value. The value is stated by its partner `EventWindow.WindowSum`, which `EventWindow.CumulativeChanges` ties to the column.
- EventWindow.Cumulative: `window` is a natural number, so the behaviour for a negative window is not modelled.
- `\d` is taken as the ASCII digits, and `lower()` as ASCII and Latin-1 capitals only. Other Unicode digits and case mappings are not modelled.
- A valid date is a proleptic Gregorian date with year 1 to 9999. The narrower pandas `Timestamp` range, which would also coerce to `NaT`, is not modelled.
- The replacement of infinite relative changes (src/results.py:217) is assumed to take effect on the table, though it is made in place on a column selection.
- The score-change series (`ScoreChanges`) is taken as the code computes it: from the row listed just before, whatever its date.
- The dovish variant (src/regression_analysis.py:333-340) is the same series on `Weighted_Dovish_Sum`.
- The driver functions `perform_market_analysis` and `perform_market_analysis_dov` are not modelled: their loops over corpora and market variables, the argument-less `run_regression_and_plot()` at src/results.py:232, and `res.get` on a `None` result at src/regression_analysis.py:303.
- The `dropna` at src/results.py:128 and the `to_numeric` at src/regression_analysis.py:167 remove or change nothing here, because neither input table has missing or non-numeric values left.
- src/factor_similarity.py, src/get_market_data.py and src/data_processing.py are not part of this model.

=== FILE: calendar.dfy ===
/** Calendar dates as the pipeline uses them: naive dates, no time of day. */
module Calendar {

  datatype Date = Date(year: int, month: int, day: int)

  /** Gregorian leap-year rule. */
  predicate IsLeapYear(y: int) {
    y % 4 == 0 && (y % 100 != 0 || y % 400 == 0)
  }

  function DaysInMonth(y: int, m: int): (n: int)
    requires 1 <= m <= 12
    ensures 28 <= n <= 31
    ensures n == 29 <==> m == 2 && IsLeapYear(y)
  {
    if m == 2 then (if IsLeapYear(y) then 29 else 28)
    else if m == 4 || m == 6 || m == 9 || m == 11 then 30
    else 31
  }

  /** A date Python's `datetime` accepts: proleptic Gregorian calendar,
      years 1 to 9999. */
  predicate IsValid(d: Date) {
    && 1 <= d.year <= 9999
    && 1 <= d.month <= 12
    && 1 <= d.day <= DaysInMonth(d.year, d.month)
  }

  /** Strict chronological order. */
  predicate Before(a: Date, b: Date) {
    || a.year < b.year
    || (a.year == b.year && a.month < b.month)
    || (a.year == b.year && a.month == b.month && a.day < b.day)
  }
}

=== FILE: date_extraction.dfy ===
/** Reading a document's date out of its file name.

    Two variants exist: the one in `src/results.py` only looks for a run of
    eight digits (`YYYYMMDD`); the one in `src/regression_analysis.py`
    falls back to `YYYY-MM-DD` when there is no such run. In both, the
    leftmost match is parsed, and a match that is not a calendar date gives
    "no date" (pandas `NaT`), with no second attempt. */
module DateExtraction {
  import opened Outcomes
  import opened Calendar

  predicate IsDigit(c: char) {
    '0' <= c <= '9'
  }

  predicate NoDigit(s: string) {
    forall k :: 0 <= k < |s| ==> !IsDigit(s[k])
  }

  function DigitValue(c: char): nat
    requires IsDigit(c)
  {
    c as int - '0' as int
  }

  /** `s[p..p+n]` exists and is made of digits. */
  predicate DigitsAt(s: string, p: nat, n: nat) {
    p + n <= |s| && forall k :: p <= k < p + n ==> IsDigit(s[k])
  }

  /** The decimal value of the `n` digits starting at `p`. */
  function NumberAt(s: string, p: nat, n: nat): nat
    requires DigitsAt(s, p, n)
    decreases n
  {
    if n == 0 then 0 else 10 * NumberAt(s, p, n - 1) + DigitValue(s[p + n - 1])
  }

  /** The two regular expressions: `\d{8}` and `\d{4}-\d{2}-\d{2}`. */
  datatype Pattern = Compact | Dashed

  predicate MatchesAt(pat: Pattern, s: string, p: nat) {
    match pat
    case Compact => DigitsAt(s, p, 8)
    case Dashed =>
      && p + 10 <= |s|
      && DigitsAt(s, p, 4) && s[p + 4] == '-'
      && DigitsAt(s, p + 5, 2) && s[p + 7] == '-'
      && DigitsAt(s, p + 8, 2)
  }

  /** Number of characters a match of the pattern spans. */
  function Width(pat: Pattern): nat {
    match pat
    case Compact => 8
    case Dashed => 10
  }

  predicate HasMatch(pat: Pattern, s: string) {
    exists p: nat | p <= |s| :: MatchesAt(pat, s, p)
  }

  /** A regular-expression search from `from` on: the leftmost position at or after `from`
      where the pattern matches, or nothing. */
  function Search(pat: Pattern, s: string, from: nat): (r: Option<nat>)
    ensures r.Some? ==> from <= r.value && MatchesAt(pat, s, r.value)
    ensures r.Some? ==> forall q: nat :: from <= q < r.value ==> !MatchesAt(pat, s, q)
    ensures r.None? ==> forall q: nat :: from <= q ==> !MatchesAt(pat, s, q)
    decreases |s| - from
  {
    if |s| < from + Width(pat) then None
    else if MatchesAt(pat, s, from) then Some(from)
    else Search(pat, s, from + 1)
  }

  /** The year, month and day fields a match spells out, as numbers, before
      any calendar check. */
  function FieldsAt(pat: Pattern, s: string, p: nat): Date
    requires MatchesAt(pat, s, p)
  {
    match pat
    case Compact => Date(NumberAt(s, p, 4), NumberAt(s, p + 4, 2), NumberAt(s, p + 6, 2))
    case Dashed => Date(NumberAt(s, p, 4), NumberAt(s, p + 5, 2), NumberAt(s, p + 8, 2))
  }

  /** The date a match spells out, parsed leniently: the match's fields when
      they name a real calendar date, and no date (an impossible date becomes
      missing) when they do not. */
  function DateAt(pat: Pattern, s: string, p: nat): (r: Option<Date>)
    requires MatchesAt(pat, s, p)
    ensures r.Some? ==> IsValid(r.value)
    ensures r.Some? <==> IsValid(FieldsAt(pat, s, p))
    ensures r.Some? ==> r.value == FieldsAt(pat, s, p)
  {
    var d := FieldsAt(pat, s, p);
    if IsValid(d) then Some(d) else None
  }

  /** `extract_date_from_filename` of `src/results.py`: eight digits only. */
  function ExtractDate(name: string): (r: Option<Date>)
    ensures r.Some? ==> IsValid(r.value) && HasMatch(Compact, name)
    ensures !HasMatch(Compact, name) ==> r == None
  {
    match Search(Compact, name, 0)
    case None => None
    case Some(p) => DateAt(Compact, name, p)
  }

  /** `extract_date_from_filename` of `src/regression_analysis.py`: eight
      digits, else `YYYY-MM-DD`. Wherever an eight-digit run exists it agrees
      with `ExtractDate`, invalid digits included. */
  function ExtractDateOrDashed(name: string): (r: Option<Date>)
    ensures r.Some? ==> IsValid(r.value)
    ensures HasMatch(Compact, name) ==> r == ExtractDate(name)
    ensures !HasMatch(Compact, name) && !HasMatch(Dashed, name) ==> r == None
  {
    match Search(Compact, name, 0)
    case Some(p) => DateAt(Compact, name, p)
    case None =>
      match Search(Dashed, name, 0)
      case None => None
      case Some(p) => DateAt(Dashed, name, p)
  }

  /** The leftmost eight-digit run alone decides both variants. */
  lemma LeftmostCompactDecides(name: string, p: nat)
    requires MatchesAt(Compact, name, p)
    requires forall q: nat :: q < p ==> !MatchesAt(Compact, name, q)
    ensures ExtractDate(name) == DateAt(Compact, name, p)
    ensures ExtractDateOrDashed(name) == DateAt(Compact, name, p)
  {
    var r := Search(Compact, name, 0);
    assert r.Some?;
    assert r.value == p;
  }

  /** Without any eight-digit run, the leftmost `YYYY-MM-DD` decides the
      fallback variant. */
  lemma LeftmostDashedDecides(name: string, p: nat)
    requires !HasMatch(Compact, name)
    requires MatchesAt(Dashed, name, p)
    requires forall q: nat :: q < p ==> !MatchesAt(Dashed, name, q)
    ensures ExtractDateOrDashed(name) == DateAt(Dashed, name, p)
    ensures ExtractDate(name) == None
  {
    var r := Search(Dashed, name, 0);
    assert r.Some?;
    assert r.value == p;
  }

  /** A name with no digit at all has no date in either variant. */
  lemma NoDigitNoDate(name: string)
    requires NoDigit(name)
    ensures ExtractDate(name) == None
    ensures ExtractDateOrDashed(name) == None
  {
    forall p: nat ensures !MatchesAt(Compact, name, p) && !MatchesAt(Dashed, name, p) {
      if p < |name| {
        assert !IsDigit(name[p]);
      }
    }
  }

  // ---- Writing dates back out, for the round trips ----

  /** The last `width` decimal digits of `n`, zero-padded (`%0<width>d`). */
  function Pad(n: nat, width: nat): (s: string)
    ensures |s| == width
    ensures forall k :: 0 <= k < width ==> IsDigit(s[k])
  {
    if width == 0 then [] else Pad(n / 10, width - 1) + [('0' as int + n % 10) as char]
  }

  function Pow10(n: nat): nat {
    if n == 0 then 1 else 10 * Pow10(n - 1)
  }

  /** `NumberAt` only looks at the digits it reads. */
  lemma NumberAtSlice(s: string, p: nat, t: string, q: nat, n: nat)
    requires DigitsAt(s, p, n) && DigitsAt(t, q, n)
    requires s[p..p + n] == t[q..q + n]
    ensures NumberAt(s, p, n) == NumberAt(t, q, n)
    decreases n
  {
    if n > 0 {
      assert s[p + n - 1] == s[p..p + n][n - 1];
      assert t[q + n - 1] == t[q..q + n][n - 1];
      assert s[p..p + n - 1] == s[p..p + n][..n - 1];
      assert t[q..q + n - 1] == t[q..q + n][..n - 1];
      NumberAtSlice(s, p, t, q, n - 1);
    }
  }

  /** Reading back a padded number gives the number, when it fits. */
  lemma {:induction false} PadRoundTrip(n: nat, width: nat)
    requires n < Pow10(width)
    ensures NumberAt(Pad(n, width), 0, width) == n
  {
    if width > 0 {
      var s := Pad(n, width);
      var h := Pad(n / 10, width - 1);
      assert s[..width - 1] == h;
      assert s[0..width - 1] == h[0..width - 1];
      PadRoundTrip(n / 10, width - 1);
      NumberAtSlice(s, 0, h, 0, width - 1);
    }
  }

  /** Any year, month and day written as `YYYYMMDD`, zero-padded. */
  function CompactText(y: nat, m: nat, dd: nat): string {
    Pad(y, 4) + Pad(m, 2) + Pad(dd, 2)
  }

  /** Any year, month and day written as `YYYY-MM-DD`, zero-padded. */
  function DashedText(y: nat, m: nat, dd: nat): string {
    Pad(y, 4) + "-" + Pad(m, 2) + "-" + Pad(dd, 2)
  }

  function FormatCompact(d: Date): string
    requires IsValid(d)
  {
    CompactText(d.year, d.month, d.day)
  }

  function FormatDashed(d: Date): string
    requires IsValid(d)
  {
    DashedText(d.year, d.month, d.day)
  }

  lemma FieldRoundTrip(s: string, p: nat, field: string, n: nat)
    requires p + |field| <= |s| && s[p..p + |field|] == field
    requires field == Pad(n, |field|) && n < Pow10(|field|)
    ensures DigitsAt(s, p, |field|)
    ensures NumberAt(s, p, |field|) == n
  {
    forall k | p <= k < p + |field| ensures IsDigit(s[k]) {
      assert s[k] == field[k - p];
    }
    assert field[0..|field|] == field;
    PadRoundTrip(n, |field|);
    NumberAtSlice(s, p, field, 0, |field|);
  }

  /** A file name holding eight digits `YYYYMMDD` after a digit-free prefix
      is read from exactly those fields by both variants: it gets that date
      when the fields name a real calendar date and no date when they do
      not (month 13, February 30, year 0, ...). */
  lemma CompactFieldsRead(y: nat, m: nat, dd: nat, prefix: string, suffix: string)
    requires y < 10000 && m < 100 && dd < 100
    requires NoDigit(prefix)
    ensures ExtractDate(prefix + CompactText(y, m, dd) + suffix)
            == if IsValid(Date(y, m, dd)) then Some(Date(y, m, dd)) else None
    ensures ExtractDateOrDashed(prefix + CompactText(y, m, dd) + suffix)
            == if IsValid(Date(y, m, dd)) then Some(Date(y, m, dd)) else None
  {
    var f := CompactText(y, m, dd);
    var s := prefix + f + suffix;
    var P := |prefix|;
    assert s[P..P + 8] == f;
    assert f[0..4] == Pad(y, 4);
    assert f[4..6] == Pad(m, 2);
    assert f[6..8] == Pad(dd, 2);
    assert s[P..P + 4] == Pad(y, 4);
    assert s[P + 4..P + 6] == Pad(m, 2);
    assert s[P + 6..P + 8] == Pad(dd, 2);
    FieldRoundTrip(s, P, Pad(y, 4), y);
    FieldRoundTrip(s, P + 4, Pad(m, 2), m);
    FieldRoundTrip(s, P + 6, Pad(dd, 2), dd);
    forall k | P <= k < P + 8 ensures IsDigit(s[k]) {
      assert s[k] == f[k - P];
    }
    forall q: nat | q < P ensures !MatchesAt(Compact, s, q) {
      assert s[q] == prefix[q];
    }
    LeftmostCompactDecides(s, P);
    assert FieldsAt(Compact, s, P) == Date(y, m, dd);
  }

  /** A file name holding `YYYY-MM-DD` between digit-free parts is read from
      exactly those fields by the fallback variant, which gives that date
      when they name a real calendar date and no date when they do not; the
      eight-digit-only variant gives no date either way. */
  lemma DashedFieldsRead(y: nat, m: nat, dd: nat, prefix: string, suffix: string)
    requires y < 10000 && m < 100 && dd < 100
    requires NoDigit(prefix) && NoDigit(suffix)
    ensures ExtractDateOrDashed(prefix + DashedText(y, m, dd) + suffix)
            == if IsValid(Date(y, m, dd)) then Some(Date(y, m, dd)) else None
    ensures ExtractDate(prefix + DashedText(y, m, dd) + suffix) == None
  {
    var f := DashedText(y, m, dd);
    var s := prefix + f + suffix;
    var P := |prefix|;
    assert s[P..P + 10] == f;
    assert f[0..4] == Pad(y, 4);
    assert f[5..7] == Pad(m, 2);
    assert f[8..10] == Pad(dd, 2);
    assert s[P..P + 4] == Pad(y, 4);
    assert s[P + 5..P + 7] == Pad(m, 2);
    assert s[P + 8..P + 10] == Pad(dd, 2);
    FieldRoundTrip(s, P, Pad(y, 4), y);
    FieldRoundTrip(s, P + 5, Pad(m, 2), m);
    FieldRoundTrip(s, P + 8, Pad(dd, 2), dd);
    assert s[P + 4] == f[4] == '-';
    assert s[P + 7] == f[7] == '-';
    forall q: nat ensures !MatchesAt(Compact, s, q) {
      if q + 8 <= |s| {
        var w := if q < P then q else if q <= P + 4 then P + 4
                 else if q <= P + 7 then P + 7 else if q <= P + 10 then P + 10 else q;
        assert q <= w < q + 8;
        if w < P {
          assert s[w] == prefix[w];
        } else if w >= P + 10 {
          assert s[w] == suffix[w - P - 10];
        }
        assert !IsDigit(s[w]);
      }
    }
    forall q: nat | q < P ensures !MatchesAt(Dashed, s, q) {
      assert s[q] == prefix[q];
    }
    LeftmostDashedDecides(s, P);
    assert FieldsAt(Dashed, s, P) == Date(y, m, dd);
  }

  /** A file name holding `YYYYMMDD` after a digit-free prefix is dated
      with that date by both variants (`FOMCpresconf20120425.txt`). */
  lemma CompactRoundTrip(d: Date, prefix: string, suffix: string)
    requires IsValid(d)
    requires NoDigit(prefix)
    ensures ExtractDate(prefix + FormatCompact(d) + suffix) == Some(d)
    ensures ExtractDateOrDashed(prefix + FormatCompact(d) + suffix) == Some(d)
  {
    CompactFieldsRead(d.year, d.month, d.day, prefix, suffix);
  }

  /** A file name holding `YYYY-MM-DD` between digit-free parts is dated by
      the fallback variant and undated by the eight-digit-only variant
      (`1995-02-01_Minutes.txt`). */
  lemma DashedRoundTrip(d: Date, prefix: string, suffix: string)
    requires IsValid(d)
    requires NoDigit(prefix) && NoDigit(suffix)
    ensures ExtractDateOrDashed(prefix + FormatDashed(d) + suffix) == Some(d)
    ensures ExtractDate(prefix + FormatDashed(d) + suffix) == None
  {
    DashedFieldsRead(d.year, d.month, d.day, prefix, suffix);
  }

  /** The first name the function's own documentation lists. */
  lemma DocumentedCompactExample()
    ensures ExtractDate("FOMCpresconf20120425.txt") == Some(Date(2012, 4, 25))
    ensures ExtractDateOrDashed("FOMCpresconf20120425.txt") == Some(Date(2012, 4, 25))
  {
    var d := Date(2012, 4, 25);
    assert FormatCompact(d) == "20120425";
    assert "FOMCpresconf20120425.txt" == "FOMCpresconf" + FormatCompact(d) + ".txt";
    CompactRoundTrip(d, "FOMCpresconf", ".txt");
  }

  /** The second name the function's own documentation lists. */
  lemma DocumentedDashedExample()
    ensures ExtractDateOrDashed("1995-02-01_Minutes.txt") == Some(Date(1995, 2, 1))
    ensures ExtractDate("1995-02-01_Minutes.txt") == None
  {
    var d := Date(1995, 2, 1);
    assert FormatDashed(d) == "1995-02-01";
    assert "1995-02-01_Minutes.txt" == "" + FormatDashed(d) + "_Minutes.txt";
    DashedRoundTrip(d, "", "_Minutes.txt");
  }

  /** A name without digits has no date. */
  lemma UndatedExample()
    ensures ExtractDate("no_date_here.txt") == None
    ensures ExtractDateOrDashed("no_date_here.txt") == None
  {
    NoDigitNoDate("no_date_here.txt");
  }

  /** An eight-digit run that is not a date gives no date, even when a valid
      `YYYY-MM-DD` follows: there is no second attempt. */
  lemma InvalidRunExample()
    ensures ExtractDateOrDashed("statement20121301_2012-01-05.txt") == None
  {
    var s := "statement20121301_2012-01-05.txt";
    assert MatchesAt(Compact, s, 9);
    assert NumberAt(s, 13, 2) == 13;
    forall q: nat | q < 9 ensures !MatchesAt(Compact, s, q) {
      assert !IsDigit(s[q]);
    }
    LeftmostCompactDecides(s, 9);
  }
}

=== FILE: date_join.dfy ===
/** The alignment step of `run_regression_and_plot` in `src/results.py`: the
    hawkishness change table is inner-joined with the market change table on
    the date, rows missing either regression variable are dropped, and an
    empty result stops the analysis before any fit. */
module DateJoin {
  import opened Outcomes
  import opened Calendar
  import opened ScoreChanges
  import opened MarketChanges

  /** One joined row, reduced to what the regression uses: the date, the
      relative score change (X) and the chosen market variable (Y). */
  datatype Pair = Pair(date: Date, change: real, market: real)

  /** The market variable is the percentage change of instrument `k`; every
      market row has that column. */
  predicate HasColumn(market: seq<MarketMove>, k: nat) {
    forall b :: 0 <= b < |market| ==> k < |market[b].pct|
  }

  /** The joined rows one hawkishness row produces: one per market row with
      the same date, in market order. */
  function MatchesOf(c: ToneChange, market: seq<MarketMove>, k: nat): (ps: seq<Pair>)
    requires HasColumn(market, k)
    ensures |ps| <= |market|
  {
    if market == [] then []
    else
      var n := |market| - 1;
      MatchesOf(c, market[..n], k)
      + (if market[n].date == c.date then [Pair(c.date, c.pct, market[n].pct[k])] else [])
  }

  /** The inner join of the change table with the market table on the date
      column: for each hawkishness row in order, its matches in market order. */
  function InnerJoin(changes: seq<ToneChange>, market: seq<MarketMove>, k: nat): (ps: seq<Pair>)
    requires HasColumn(market, k)
  {
    if changes == [] then []
    else
      var n := |changes| - 1;
      InnerJoin(changes[..n], market, k) + MatchesOf(changes[n], market, k)
  }

  lemma {:induction false} MatchesOfMembers(c: ToneChange, market: seq<MarketMove>, k: nat)
    requires HasColumn(market, k)
    ensures forall p :: p in MatchesOf(c, market, k) <==>
              exists b :: 0 <= b < |market| && market[b].date == c.date && p == Pair(c.date, c.pct, market[b].pct[k])
  {
    if market != [] {
      var n := |market| - 1;
      MatchesOfMembers(c, market[..n], k);
      assert forall b :: 0 <= b < n ==> market[..n][b] == market[b];
    }
  }

  /** A joined row exists exactly for each hawkishness row and market row
      that share a date, and carries the hawkishness row's relative change
      and the market row's value. */
  lemma {:induction false} InnerJoinMembers(changes: seq<ToneChange>, market: seq<MarketMove>, k: nat)
    requires HasColumn(market, k)
    ensures forall p :: p in InnerJoin(changes, market, k) <==>
              exists a, b :: 0 <= a < |changes| && 0 <= b < |market| && changes[a].date == market[b].date
                             && p == Pair(changes[a].date, changes[a].pct, market[b].pct[k])
  {
    if changes != [] {
      var n := |changes| - 1;
      InnerJoinMembers(changes[..n], market, k);
      MatchesOfMembers(changes[n], market, k);
      assert forall a :: 0 <= a < n ==> changes[..n][a] == changes[a];
    }
  }

  /** Joining a concatenation is concatenating the joins: the join keeps the
      order of the hawkishness rows. */
  lemma {:induction false} InnerJoinAppend(left: seq<ToneChange>, right: seq<ToneChange>, market: seq<MarketMove>, k: nat)
    requires HasColumn(market, k)
    ensures InnerJoin(left + right, market, k) == InnerJoin(left, market, k) + InnerJoin(right, market, k)
    decreases |right|
  {
    if right == [] {
      assert left + right == left;
    } else {
      var n := |right| - 1;
      var whole := left + right;
      assert whole[..|whole| - 1] == left + right[..n];
      assert whole[|whole| - 1] == right[n];
      var tail := MatchesOf(right[n], market, k);
      assert InnerJoin(whole, market, k) == InnerJoin(left + right[..n], market, k) + tail;
      InnerJoinAppend(left, right[..n], market, k);
      assert InnerJoin(right, market, k) == InnerJoin(right[..n], market, k) + tail;
    }
  }

  predicate OneRowPerDate(market: seq<MarketMove>) {
    forall a, b :: 0 <= a < b < |market| ==> market[a].date != market[b].date
  }

  lemma {:induction false} AtMostOneMatch(c: ToneChange, market: seq<MarketMove>, k: nat)
    requires HasColumn(market, k) && OneRowPerDate(market)
    ensures |MatchesOf(c, market, k)| <= 1
    ensures |MatchesOf(c, market, k)| == 1 <==> exists b :: 0 <= b < |market| && market[b].date == c.date
  {
    if market != [] {
      var n := |market| - 1;
      assert OneRowPerDate(market[..n]);
      AtMostOneMatch(c, market[..n], k);
      if market[n].date == c.date {
        assert forall b :: 0 <= b < n ==> market[..n][b].date != c.date;
      }
    }
  }

  /** The market table of `load_market_data` has one row per date, so every
      hawkishness row yields at most one joined row. */
  lemma {:induction false} JoinNoLongerThanChanges(changes: seq<ToneChange>, market: seq<MarketMove>, k: nat)
    requires HasColumn(market, k) && OneRowPerDate(market)
    ensures |InnerJoin(changes, market, k)| <= |changes|
  {
    if changes != [] {
      JoinNoLongerThanChanges(changes[..|changes| - 1], market, k);
      AtMostOneMatch(changes[|changes| - 1], market, k);
    }
  }

  /** The table `load_market_data` returns has one row per date. */
  lemma LoadedMarketHasOneRowPerDate(sheets: seq<Sheet>)
    requires forall k :: 0 <= k < |sheets| ==> MarketChanges.DistinctDates(sheets[k]) && NonZeroPrices(sheets[k])
    requires LoadMarketData(sheets).Success?
    ensures OneRowPerDate(LoadMarketData(sheets).value)
  {
  }

  /** The sample handed to the regression, or `None` when the join is empty
      (the function prints a message and returns without fitting). The
      `dropna` on the two variables removes nothing here, since neither table
      has missing values left. Every pair sharing a date is in the sample, and
      a present sample is the whole inner join, in the order `InnerJoinAppend`
      fixes. */
  function RegressionSample(changes: seq<ToneChange>, market: seq<MarketMove>, k: nat): (r: Option<seq<Pair>>)
    requires HasColumn(market, k)
    ensures r.None? <==> forall a, b :: 0 <= a < |changes| && 0 <= b < |market| ==> changes[a].date != market[b].date
    ensures r.Some? ==> r.value != [] && forall p :: p in r.value ==>
              exists a, b :: 0 <= a < |changes| && 0 <= b < |market| && changes[a].date == market[b].date
                             && p == Pair(changes[a].date, changes[a].pct, market[b].pct[k])
    ensures forall a, b :: 0 <= a < |changes| && 0 <= b < |market| && changes[a].date == market[b].date ==>
              r.Some? && Pair(changes[a].date, changes[a].pct, market[b].pct[k]) in r.value
    ensures r.Some? ==> r.value == InnerJoin(changes, market, k)
  {
    var ps := InnerJoin(changes, market, k);
    InnerJoinMembers(changes, market, k);
    forall a, b | 0 <= a < |changes| && 0 <= b < |market| && changes[a].date == market[b].date
      ensures Pair(changes[a].date, changes[a].pct, market[b].pct[k]) in ps
    {
    }
    if ps == [] then None
    else
      assert ps[0] in ps;
      Some(ps)
  }
}

=== FILE: event_window.dfy ===
/** The event-window aggregation of `run_regression_compute_stats`: for every
    row of the merged, date-sorted table that carries a hawkishness change,
    the sum of the market variable over the first `window` rows dated on or
    after it that have a market value; then the rows where either side is
    missing are dropped, and an empty sample stops the analysis. */
module EventWindow {
  import opened Outcomes
  import opened Calendar

  /** One row of the merged table: its date (`None` for NaT), the market
      variable and the hawkishness change. */
  datatype MergedRow = MergedRow(date: Option<Date>, market: Option<real>, change: Option<real>)

  /** A row date falls on or after the event date; every comparison with a
      missing date (NaT) is false. */
  predicate OnOrAfter(d: Option<Date>, from: Option<Date>) {
    d.Some? && from.Some? && !Before(d.value, from.value)
  }

  /** The row belongs to `future_market_data` for an event dated `from`. */
  predicate Counted(row: MergedRow, from: Option<Date>) {
    OnOrAfter(row.date, from) && row.market.Some?
  }

  /** The market values counted for an event dated `from`: those of the
      counted rows, in table order. */
  function Eligible(rows: seq<MergedRow>, from: Option<Date>): (xs: seq<real>)
    ensures |xs| <= |rows|
  {
    if rows == [] then []
    else
      var last := rows[|rows| - 1];
      Eligible(rows[..|rows| - 1], from) + (if Counted(last, from) then [last.market.value] else [])
  }

  /** Exactly the counted rows contribute a value. */
  lemma {:induction false} EligibleMembers(rows: seq<MergedRow>, from: Option<Date>)
    ensures forall x :: x in Eligible(rows, from) <==>
              exists j :: 0 <= j < |rows| && Counted(rows[j], from) && rows[j].market == Some(x)
  {
    if rows != [] {
      var init := rows[..|rows| - 1];
      EligibleMembers(init, from);
      assert forall j :: 0 <= j < |init| ==> init[j] == rows[j];
    }
  }

  function Sum(xs: seq<real>): real {
    if xs == [] then 0.0 else Sum(xs[..|xs| - 1]) + xs[|xs| - 1]
  }

  /** The cumulative change of row `i`: present when the row has a hawkishness change
      and at least `window` market values are counted for its date, and then
      the sum of the first `window` of them. */
  function CumulativeAt(rows: seq<MergedRow>, i: nat, window: nat): (r: Option<real>)
    requires i < |rows|
    ensures r.Some? <==> rows[i].change.Some? && |Eligible(rows, rows[i].date)| >= window
  {
    var xs := Eligible(rows, rows[i].date);
    if rows[i].change.Some? && |xs| >= window then Some(Sum(xs[..window])) else None
  }

  /** The `cumulative_change` column: one entry per merged row, missing on
      every row without a hawkishness change, and present on a row with one
      exactly when its window can be filled. */
  function Cumulative(rows: seq<MergedRow>, window: nat): (col: seq<Option<real>>)
    ensures |col| == |rows|
    ensures forall i :: 0 <= i < |rows| ==> col[i] == CumulativeAt(rows, i, window)
    ensures forall i :: 0 <= i < |rows| && rows[i].change.None? ==> col[i].None?
    ensures forall i :: 0 <= i < |rows| && rows[i].change.Some? ==>
              (col[i].Some? <==> |Eligible(rows, rows[i].date)| >= window)
  {
    seq(|rows|, i requires 0 <= i < |rows| => CumulativeAt(rows, i, window))
  }

  // ---- Properties of the window ----

  /** Widening the window by one adds the next counted value, and a window
      that can be filled can be filled when one shorter. */
  lemma WindowGrows(rows: seq<MergedRow>, i: nat, window: nat)
    requires i < |rows|
    requires CumulativeAt(rows, i, window + 1).Some?
    ensures CumulativeAt(rows, i, window).Some?
    ensures CumulativeAt(rows, i, window + 1).value ==
              CumulativeAt(rows, i, window).value + Eligible(rows, rows[i].date)[window]
  {
    var xs := Eligible(rows, rows[i].date);
    assert xs[..window + 1][..window] == xs[..window];
  }

  /** An empty window sums to zero for every row with a change. */
  lemma EmptyWindow(rows: seq<MergedRow>, i: nat)
    requires i < |rows| && rows[i].change.Some?
    ensures CumulativeAt(rows, i, 0) == Some(0.0)
  {
    assert Eligible(rows, rows[i].date)[..0] == [];
  }

  /** Rows with no hawkishness change never get a cumulative change. */
  lemma NoChangeNoCumulative(rows: seq<MergedRow>, i: nat, window: nat)
    requires i < |rows| && rows[i].change.None?
    ensures CumulativeAt(rows, i, window).None?
  {
  }

  lemma {:induction false} NaTCountsNothing(rows: seq<MergedRow>)
    ensures Eligible(rows, None) == []
  {
    if rows != [] {
      NaTCountsNothing(rows[..|rows| - 1]);
    }
  }

  /** An event without a date (NaT) compares false with every date, so no
      market value is counted for it and no non-empty window is ever filled. */
  lemma NaTEventNeverFilled(rows: seq<MergedRow>, i: nat, window: nat)
    requires i < |rows| && rows[i].date.None? && window > 0
    ensures CumulativeAt(rows, i, window).None?
  {
    NaTCountsNothing(rows);
  }

  /** The event's own market value, when the event row has one, is among the
      counted values ("including the current date"). */
  lemma EventDayCounted(rows: seq<MergedRow>, i: nat)
    requires i < |rows| && rows[i].date.Some? && rows[i].market.Some?
    ensures rows[i].market.value in Eligible(rows, rows[i].date)
  {
    EligibleMembers(rows, rows[i].date);
    assert Counted(rows[i], rows[i].date);
  }

  /** The market values present in `rows`, in order. */
  function Present(rows: seq<MergedRow>): (xs: seq<real>)
    ensures |xs| <= |rows|
  {
    if rows == [] then []
    else
      var last := rows[|rows| - 1];
      Present(rows[..|rows| - 1]) + (if last.market.Some? then [last.market.value] else [])
  }

  predicate SortedByDate(rows: seq<MergedRow>) {
    && (forall j :: 0 <= j < |rows| ==> rows[j].date.Some?)
    && (forall a, b :: 0 <= a < b < |rows| ==> !Before(rows[b].date.value, rows[a].date.value))
  }

  lemma {:induction false} EligibleOfSplit(rows: seq<MergedRow>, from: Option<Date>, k: nat)
    requires k <= |rows|
    requires forall j :: 0 <= j < k ==> !OnOrAfter(rows[j].date, from)
    requires forall j :: k <= j < |rows| ==> OnOrAfter(rows[j].date, from)
    ensures Eligible(rows, from) == Present(rows[k..])
    decreases |rows|
  {
    if |rows| > k {
      var init := rows[..|rows| - 1];
      assert forall j :: 0 <= j < |init| ==> init[j] == rows[j];
      EligibleOfSplit(init, from, k);
      assert init[k..] == rows[k..][..|rows[k..]| - 1];
    } else if rows != [] {
      var init := rows[..|rows| - 1];
      assert forall j :: 0 <= j < |init| ==> init[j] == rows[j];
      EligibleOfSplit(init, from, |init|);
    }
  }

  /** In a table sorted by date without NaT, the values counted for an event
      are the market values of a contiguous tail of the table: from the first
      row sharing the event's date to the end. So the window holds the next
      `window` available market days, the event's own day first. */
  lemma SortedWindowIsTail(rows: seq<MergedRow>, i: nat)
    requires i < |rows| && SortedByDate(rows)
    ensures exists k :: 0 <= k <= i && rows[k].date == rows[i].date
                        && Eligible(rows, rows[i].date) == Present(rows[k..])
  {
    var from := rows[i].date;
    var k := FirstOnOrAfter(rows, from, 0);
    assert OnOrAfter(rows[i].date, from);
    forall j | k <= j < |rows| ensures OnOrAfter(rows[j].date, from) {
      assert OnOrAfter(rows[k].date, from);
    }
    EligibleOfSplit(rows, from, k);
    assert !Before(rows[k].date.value, from.value);
    assert !Before(from.value, rows[k].date.value);
  }

  function FirstOnOrAfter(rows: seq<MergedRow>, from: Option<Date>, j: nat): (k: nat)
    requires j <= |rows|
    ensures j <= k <= |rows|
    ensures forall u :: j <= u < k ==> !OnOrAfter(rows[u].date, from)
    ensures k < |rows| ==> OnOrAfter(rows[k].date, from)
    decreases |rows| - j
  {
    if j == |rows| || OnOrAfter(rows[j].date, from) then j
    else FirstOnOrAfter(rows, from, j + 1)
  }

  // ---- The loop of the source ----

  /** The loop over the merged table. For each event row it walks the table
      once, adding counted values until the window is full, instead of first
      building the whole filtered list; the result is the `cumulative_change`
      column all the same. */
  method CumulativeChanges(rows: seq<MergedRow>, window: nat) returns (out: seq<Option<real>>)
    ensures out == Cumulative(rows, window)
  {
    out := [];
    var i := 0;
    while i < |rows|
      invariant 0 <= i <= |rows|
      invariant |out| == i
      invariant forall u :: 0 <= u < i ==> out[u] == CumulativeAt(rows, u, window)
    {
      var c: Option<real> := None;
      if rows[i].change.Some? {
        c := WindowSum(rows, rows[i].date, window);
      }
      out := out + [c];
      i := i + 1;
    }
  }

  lemma SumAppend(xs: seq<real>, x: real)
    ensures Sum(xs + [x]) == Sum(xs) + x
  {
    assert (xs + [x])[..|xs|] == xs;
  }

  /** Counting one more row of the table. */
  lemma EligibleStep(rows: seq<MergedRow>, from: Option<Date>, j: nat)
    requires j < |rows|
    ensures Eligible(rows[..j + 1], from) ==
              Eligible(rows[..j], from) + (if Counted(rows[j], from) then [rows[j].market.value] else [])
  {
    assert rows[..j + 1][..j] == rows[..j];
  }

  /** The sum of the first `window` counted values, or `None` if fewer are
      counted, by one pass that stops as soon as the window is full. */
  method WindowSum(rows: seq<MergedRow>, from: Option<Date>, window: nat) returns (r: Option<real>)
    ensures r.Some? <==> |Eligible(rows, from)| >= window
    ensures r.Some? ==> r.value == Sum(Eligible(rows, from)[..window])
  {
    var count := 0;
    var sum := 0.0;
    var j := 0;
    while j < |rows| && count < window
      invariant 0 <= j <= |rows|
      invariant count == |Eligible(rows[..j], from)| <= window
      invariant sum == Sum(Eligible(rows[..j], from))
    {
      EligibleStep(rows, from, j);
      if Counted(rows[j], from) {
        SumAppend(Eligible(rows[..j], from), rows[j].market.value);
        sum := sum + rows[j].market.value;
        count := count + 1;
      } else {
        assert Eligible(rows[..j], from) + [] == Eligible(rows[..j], from);
      }
      j := j + 1;
    }
    EligiblePrefix(rows, from, j);
    if count >= window {
      r := Some(sum);
    } else {
      assert rows[..j] == rows;
      r := None;
    }
  }

  /** The values counted in a prefix of the table are a prefix of the values
      counted in the whole table. */
  lemma {:induction false} EligiblePrefix(rows: seq<MergedRow>, from: Option<Date>, j: nat)
    requires j <= |rows|
    ensures |Eligible(rows[..j], from)| <= |Eligible(rows, from)|
    ensures Eligible(rows[..j], from) == Eligible(rows, from)[..|Eligible(rows[..j], from)|]
    decreases |rows| - j
  {
    if j < |rows| {
      EligiblePrefix(rows, from, j + 1);
      EligibleStep(rows, from, j);
      var small := Eligible(rows[..j], from);
      var mid := Eligible(rows[..j + 1], from);
      var big := Eligible(rows, from);
      assert mid[..|small|] == small;
      assert big[..|mid|][..|small|] == big[..|small|];
    } else {
      assert rows[..j] == rows;
    }
  }

  // ---- The regression sample ----

  /** One observation: the hawkishness change (X) and the cumulative market
      change (Y). */
  datatype Observation = Observation(change: real, cumulative: real)

  /** Dropping the rows where the cumulative change or the hawkishness change
      is missing: the rows where both are present, in table order. */
  function Observations(rows: seq<MergedRow>, cumulative: seq<Option<real>>): (obs: seq<Observation>)
    requires |cumulative| == |rows|
    ensures |obs| <= |rows|
  {
    if rows == [] then []
    else
      var n := |rows| - 1;
      Observations(rows[..n], cumulative[..n])
      + (if rows[n].change.Some? && cumulative[n].Some?
         then [Observation(rows[n].change.value, cumulative[n].value)] else [])
  }

  lemma {:induction false} ObservationsMembers(rows: seq<MergedRow>, cumulative: seq<Option<real>>)
    requires |cumulative| == |rows|
    ensures forall o :: o in Observations(rows, cumulative) <==>
              exists i :: 0 <= i < |rows| && rows[i].change == Some(o.change) && cumulative[i] == Some(o.cumulative)
  {
    if rows != [] {
      var n := |rows| - 1;
      ObservationsMembers(rows[..n], cumulative[..n]);
      assert forall i :: 0 <= i < n ==> rows[..n][i] == rows[i] && cumulative[..n][i] == cumulative[i];
    }
  }

  /** Dropping keeps row order and multiplicity: dropping from a
      concatenation concatenates the dropped parts. */
  lemma {:induction false} ObservationsAppend(a: seq<MergedRow>, ca: seq<Option<real>>,
                                              b: seq<MergedRow>, cb: seq<Option<real>>)
    requires |ca| == |a| && |cb| == |b|
    ensures Observations(a + b, ca + cb) == Observations(a, ca) + Observations(b, cb)
    decreases |b|
  {
    if b == [] {
      assert a + b == a && ca + cb == ca;
    } else {
      var n := |b| - 1;
      var rows, col := a + b, ca + cb;
      assert rows[..|rows| - 1] == a + b[..n];
      assert col[..|col| - 1] == ca + cb[..n];
      assert rows[|rows| - 1] == b[n] && col[|col| - 1] == cb[n];
      var last := if b[n].change.Some? && cb[n].Some? then [Observation(b[n].change.value, cb[n].value)] else [];
      assert Observations(rows, col) == Observations(a + b[..n], ca + cb[..n]) + last;
      assert Observations(b, cb) == Observations(b[..n], cb[..n]) + last;
      ObservationsAppend(a, ca, b[..n], cb[..n]);
    }
  }

  /** A single row gives one observation, with its two values, exactly when
      both are present. */
  lemma ObservationsSingle(row: MergedRow, c: Option<real>)
    ensures Observations([row], [c]) ==
              if row.change.Some? && c.Some? then [Observation(row.change.value, c.value)] else []
  {
    assert [row][..0] == [] && [c][..0] == [];
  }

  /** The sample the regression is fitted on, or `None` when nothing is left
      after dropping missing values (the function returns without fitting).
      Every observation comes from a row with a change whose window could be
      filled, every such row gives its observation, and the sample is empty
      exactly when no such row exists. A present sample is the whole
      cumulative table after dropping, one observation per filled row in
      table order (`ObservationsAppend`). */
  function RegressionSample(rows: seq<MergedRow>, window: nat): (r: Option<seq<Observation>>)
    ensures r.None? <==> forall i :: 0 <= i < |rows| ==> CumulativeAt(rows, i, window).None?
    ensures r.Some? ==> r.value != [] && |r.value| <= |rows|
    ensures r.Some? ==> forall o :: o in r.value ==>
              exists i :: 0 <= i < |rows| && rows[i].change == Some(o.change)
                          && CumulativeAt(rows, i, window) == Some(o.cumulative)
    ensures forall i :: 0 <= i < |rows| && CumulativeAt(rows, i, window).Some? ==>
              r.Some? && Observation(rows[i].change.value, CumulativeAt(rows, i, window).value) in r.value
    ensures r.Some? ==> r.value == Observations(rows, Cumulative(rows, window))
  {
    var cumulative := Cumulative(rows, window);
    var obs := Observations(rows, cumulative);
    ObservationsMembers(rows, cumulative);
    forall i | 0 <= i < |rows| && CumulativeAt(rows, i, window).Some?
      ensures Observation(rows[i].change.value, cumulative[i].value) in obs
    {
    }
    if obs == [] then
      None
    else
      assert exists i :: 0 <= i < |rows| && CumulativeAt(rows, i, window).Some? by {
        var o := obs[0];
        assert o in obs;
        var i :| 0 <= i < |rows| && rows[i].change == Some(o.change) && cumulative[i] == Some(o.cumulative);
        assert CumulativeAt(rows, i, window).Some?;
      }
      Some(obs)
  }
}

=== FILE: market_changes.dfy ===
/** The data shaping of `load_market_data` (identical in
    `src/regression_analysis.py` and `src/results.py`).

    One price column is picked per workbook sheet, the sheets are outer-merged
    on date, sorted by date and forward-filled; then each instrument gets a
    percentage change and an absolute change, and every row with a missing
    value is dropped. */
module MarketChanges {
  import opened Outcomes
  import opened Calendar

  /** One row of an instrument sheet: the two price fields the code may pick. */
  datatype PriceRow = PriceRow(date: Date, pxMid: Option<real>, pxLast: Option<real>)

  datatype Sheet = Sheet(name: string, rows: seq<PriceRow>)

  /** `PX_MID` for the two Treasury sheets, `PX_LAST` for every other one. */
  function Price(sheet: string, row: PriceRow): Option<real> {
    if sheet == "GT10" || sheet == "GT2" then row.pxMid else row.pxLast
  }

  /** The code merges on `Date` with one row per sheet and date. */
  predicate DistinctDates(s: Sheet) {
    forall a, b :: 0 <= a < b < |s.rows| ==> s.rows[a].date != s.rows[b].date
  }

  /** No picked price is zero, so every relative change is finite. */
  predicate NonZeroPrices(s: Sheet) {
    forall a :: 0 <= a < |s.rows| && Price(s.name, s.rows[a]).Some? ==> Price(s.name, s.rows[a]).value != 0.0
  }

  predicate InSheet(s: Sheet, d: Date) {
    exists a :: 0 <= a < |s.rows| && s.rows[a].date == d
  }

  // ---- Merging dates ----

  predicate StrictlyIncreasing(ds: seq<Date>) {
    forall a, b :: 0 <= a < b < |ds| ==> Before(ds[a], ds[b])
  }

  /** Adds one date to a strictly increasing list of dates. */
  function Insert(ds: seq<Date>, d: Date): (r: seq<Date>)
    requires StrictlyIncreasing(ds)
    ensures StrictlyIncreasing(r)
    ensures forall x :: x in r <==> x in ds || x == d
  {
    if ds == [] then [d]
    else if d == ds[0] then ds
    else if Before(d, ds[0]) then [d] + ds
    else
      var rest := Insert(ds[1..], d);
      assert forall x :: x in ds[1..] ==> Before(ds[0], x);
      [ds[0]] + rest
  }

  /** The distinct dates of `ds`, ascending. */
  function SortedDates(ds: seq<Date>): (r: seq<Date>)
    ensures StrictlyIncreasing(r)
    ensures forall x :: x in r <==> x in ds
  {
    if ds == [] then []
    else Insert(SortedDates(ds[..|ds| - 1]), ds[|ds| - 1])
  }

  function SheetDates(sheets: seq<Sheet>): (ds: seq<Date>)
    ensures forall d :: d in ds <==> exists k :: 0 <= k < |sheets| && InSheet(sheets[k], d)
  {
    if sheets == [] then []
    else
      var here := seq(|sheets[0].rows|, a requires 0 <= a < |sheets[0].rows| => sheets[0].rows[a].date);
      forall d ensures d in here <==> InSheet(sheets[0], d) {
        if InSheet(sheets[0], d) {
          var a :| 0 <= a < |sheets[0].rows| && sheets[0].rows[a].date == d;
          assert here[a] == d;
        }
      }
      var rest := SheetDates(sheets[1..]);
      assert forall k :: 1 <= k < |sheets| ==> sheets[1..][k - 1] == sheets[k];
      here + rest
  }

  // ---- The level table ----

  /** The picked price of the first row dated `d`, if any. */
  function Lookup(s: Sheet, d: Date): (v: Option<real>)
    ensures !InSheet(s, d) ==> v == None
    ensures forall a :: 0 <= a < |s.rows| && s.rows[a].date == d && DistinctDates(s) ==>
              v == Price(s.name, s.rows[a])
    decreases |s.rows|
  {
    if s.rows == [] then None
    else if s.rows[0].date == d then Price(s.name, s.rows[0])
    else
      var rest := Sheet(s.name, s.rows[1..]);
      assert forall a :: 1 <= a < |s.rows| ==> rest.rows[a - 1] == s.rows[a];
      Lookup(rest, d)
  }

  function FFillFrom(xs: seq<Option<real>>, last: Option<real>): (r: seq<Option<real>>)
    ensures |r| == |xs|
    ensures forall t :: 0 <= t < |xs| && xs[t].Some? ==> r[t] == xs[t]
    ensures forall t :: 0 < t < |xs| && xs[t].None? ==> r[t] == r[t - 1]
    ensures |xs| > 0 && xs[0].None? ==> r[0] == last
  {
    if xs == [] then []
    else
      var v := if xs[0].Some? then xs[0] else last;
      [v] + FFillFrom(xs[1..], v)
  }

  /** `fillna(method='ffill')` on one column: every missing value becomes the
      nearest earlier present one; leading missing values stay missing. */
  function FFill(xs: seq<Option<real>>): (r: seq<Option<real>>)
    ensures |r| == |xs|
    ensures forall t :: 0 <= t < |xs| && xs[t].Some? ==> r[t] == xs[t]
    ensures forall t :: 0 < t < |xs| && xs[t].None? ==> r[t] == r[t - 1]
    ensures |xs| > 0 && xs[0].None? ==> r[0] == None
  {
    FFillFrom(xs, None)
  }

  /** Forward filling never invents a value: a filled cell is missing exactly
      when everything up to it was missing, and otherwise holds the value of
      the latest present cell at or before it. */
  lemma {:induction false} FFillFindsLatest(xs: seq<Option<real>>, t: nat)
    requires t < |xs|
    ensures FFill(xs)[t].None? <==> forall u :: 0 <= u <= t ==> xs[u].None?
    ensures FFill(xs)[t].Some? ==>
              exists u :: 0 <= u <= t && xs[u] == FFill(xs)[t]
                          && forall w :: u < w <= t ==> xs[w].None?
  {
    if t > 0 {
      FFillFindsLatest(xs, t - 1);
      if xs[t].None? && FFill(xs)[t].Some? {
        var u :| 0 <= u <= t - 1 && xs[u] == FFill(xs)[t - 1]
                 && forall w :: u < w <= t - 1 ==> xs[w].None?;
        assert forall w :: u < w <= t ==> xs[w].None?;
      }
    }
  }

  /** Dates ascending, one column per sheet (`columns[k][t]` is sheet `k` on
      `dates[t]`). */
  datatype LevelTable = LevelTable(dates: seq<Date>, columns: seq<seq<Option<real>>>)

  predicate Rectangular(l: LevelTable) {
    forall k :: 0 <= k < |l.columns| ==> |l.columns[k]| == |l.dates|
  }

  /** Once a column has a value, every later row has one. */
  predicate ForwardFilled(l: LevelTable) {
    && Rectangular(l)
    && forall k, t :: 0 <= k < |l.columns| && 0 < t < |l.dates| && l.columns[k][t - 1].Some? ==>
         l.columns[k][t].Some?
  }

  predicate NonZero(l: LevelTable) {
    && Rectangular(l)
    && forall k, t :: 0 <= k < |l.columns| && 0 <= t < |l.dates| && l.columns[k][t].Some? ==>
         l.columns[k][t].value != 0.0
  }

  /** One sheet's column of the level table over the merged `dates`: its own
      price where it has one, otherwise the value of the row before. */
  function Column(s: Sheet, dates: seq<Date>): (c: seq<Option<real>>)
    ensures |c| == |dates|
    ensures forall t :: 0 < t < |dates| && c[t - 1].Some? ==> c[t].Some?
    ensures forall t :: 0 <= t < |dates| && Lookup(s, dates[t]).Some? ==> c[t] == Lookup(s, dates[t])
    ensures forall t :: 0 < t < |dates| && Lookup(s, dates[t]).None? ==> c[t] == c[t - 1]
    ensures |dates| > 0 && Lookup(s, dates[0]).None? ==> c[0] == None
    ensures NonZeroPrices(s) ==> forall t :: 0 <= t < |dates| && c[t].Some? ==> c[t].value != 0.0
  {
    var raw := seq(|dates|, t requires 0 <= t < |dates| => Lookup(s, dates[t]));
    var c := FFill(raw);
    assert NonZeroPrices(s) ==> forall t :: 0 <= t < |dates| && c[t].Some? ==> c[t].value != 0.0 by {
      if NonZeroPrices(s) {
        forall t | 0 <= t < |dates| && c[t].Some? ensures c[t].value != 0.0 {
          FFillFindsLatest(raw, t);
          var u :| 0 <= u <= t && raw[u] == c[t] && forall w :: u < w <= t ==> raw[w].None?;
          LookupNonZero(s, dates[u]);
        }
      }
    }
    c
  }

  /** `instrument_level` after the merge, the sort and the forward fill: every
      date of any sheet once, ascending; a sheet's own price where it has one
      on that date, otherwise the value of the row before. */
  function Levels(sheets: seq<Sheet>): (l: LevelTable)
    ensures StrictlyIncreasing(l.dates)
    ensures forall d :: d in l.dates <==> exists k :: 0 <= k < |sheets| && InSheet(sheets[k], d)
    ensures |l.columns| == |sheets| && ForwardFilled(l)
    ensures forall k, t, a ::
              (&& 0 <= k < |sheets| && 0 <= t < |l.dates| && 0 <= a < |sheets[k].rows|
               && sheets[k].rows[a].date == l.dates[t] && DistinctDates(sheets[k])
               && Price(sheets[k].name, sheets[k].rows[a]).Some?) ==>
              l.columns[k][t] == Price(sheets[k].name, sheets[k].rows[a])
    ensures forall k, t :: 0 <= k < |sheets| && 0 < t < |l.dates| && Lookup(sheets[k], l.dates[t]).None? ==>
              l.columns[k][t] == l.columns[k][t - 1]
    ensures forall k :: 0 <= k < |sheets| && |l.dates| > 0 && Lookup(sheets[k], l.dates[0]).None? ==>
              l.columns[k][0] == None
    ensures (forall k :: 0 <= k < |sheets| ==> NonZeroPrices(sheets[k])) ==> NonZero(l)
  {
    var dates := SortedDates(SheetDates(sheets));
    var columns := seq(|sheets|, k requires 0 <= k < |sheets| => Column(sheets[k], dates));
    var l := LevelTable(dates, columns);
    assert ForwardFilled(l) by {
      forall k, t | 0 <= k < |columns| && 0 < t < |dates| && columns[k][t - 1].Some?
        ensures columns[k][t].Some?
      {
        assert columns[k] == Column(sheets[k], dates);
      }
    }
    forall k, t, a | && 0 <= k < |sheets| && 0 <= t < |dates| && 0 <= a < |sheets[k].rows|
                     && sheets[k].rows[a].date == dates[t] && DistinctDates(sheets[k])
                     && Price(sheets[k].name, sheets[k].rows[a]).Some?
      ensures columns[k][t] == Price(sheets[k].name, sheets[k].rows[a])
    {
      assert columns[k] == Column(sheets[k], dates);
    }
    forall k, t | 0 <= k < |sheets| && 0 < t < |dates| && Lookup(sheets[k], dates[t]).None?
      ensures columns[k][t] == columns[k][t - 1]
    {
      assert columns[k] == Column(sheets[k], dates);
    }
    forall k | 0 <= k < |sheets| && |dates| > 0 && Lookup(sheets[k], dates[0]).None?
      ensures columns[k][0] == None
    {
      assert columns[k] == Column(sheets[k], dates);
    }
    assert (forall k :: 0 <= k < |sheets| ==> NonZeroPrices(sheets[k])) ==> NonZero(l) by {
      if forall k :: 0 <= k < |sheets| ==> NonZeroPrices(sheets[k]) {
        forall k, t | 0 <= k < |columns| && 0 <= t < |dates| && columns[k][t].Some?
          ensures columns[k][t].value != 0.0
        {
          assert columns[k] == Column(sheets[k], dates);
        }
      }
    }
    l
  }

  lemma LookupNonZero(s: Sheet, d: Date)
    requires NonZeroPrices(s)
    ensures Lookup(s, d).Some? ==> Lookup(s, d).value != 0.0
    decreases |s.rows|
  {
    if s.rows != [] && s.rows[0].date != d {
      var rest := Sheet(s.name, s.rows[1..]);
      assert forall a :: 1 <= a < |s.rows| ==> rest.rows[a - 1] == s.rows[a];
      LookupNonZero(rest, d);
    }
  }

  // ---- Changes ----

  /** `diff()` of a column at row `t`: present exactly when both levels are,
      and then the level equals the previous level plus the change. */
  function Diff(col: seq<Option<real>>, t: nat): (r: Option<real>)
    requires t < |col|
    ensures r.Some? <==> t >= 1 && col[t].Some? && col[t - 1].Some?
    ensures r.Some? ==> col[t].value == col[t - 1].value + r.value
  {
    if t >= 1 && col[t].Some? && col[t - 1].Some? then Some(col[t].value - col[t - 1].value)
    else None
  }

  /** `pct_change()` of a column at row `t` (`level / previous - 1`): present
      exactly when both levels are, and then the level equals the previous
      level times one plus the change. */
  function PctChange(col: seq<Option<real>>, t: nat): (r: Option<real>)
    requires t < |col|
    requires t >= 1 && col[t - 1].Some? ==> col[t - 1].value != 0.0
    ensures r.Some? <==> t >= 1 && col[t].Some? && col[t - 1].Some?
    ensures r.Some? ==> col[t].value == col[t - 1].value * (1.0 + r.value)
  {
    if t >= 1 && col[t].Some? && col[t - 1].Some? then
      var q := col[t].value / col[t - 1].value;
      assert q * col[t - 1].value == col[t].value;
      Some(q - 1.0)
    else None
  }

  /** A row of `market_moves` before `dropna`: date, then one percentage and
      one absolute change per instrument. */
  datatype ChangeRow = ChangeRow(date: Date, pct: seq<Option<real>>, abs: seq<Option<real>>)

  /** A row of the returned table: nothing is missing any more. */
  datatype MarketMove = MarketMove(date: Date, pct: seq<real>, abs: seq<real>)

  function ChangeRowAt(l: LevelTable, t: nat): (row: ChangeRow)
    requires NonZero(l) && t < |l.dates|
    ensures |row.pct| == |row.abs| == |l.columns|
  {
    ChangeRow(l.dates[t],
              seq(|l.columns|, k requires 0 <= k < |l.columns| => PctChange(l.columns[k], t)),
              seq(|l.columns|, k requires 0 <= k < |l.columns| => Diff(l.columns[k], t)))
  }

  function ChangeTable(l: LevelTable): (rows: seq<ChangeRow>)
    requires NonZero(l)
    ensures |rows| == |l.dates|
  {
    seq(|l.dates|, t requires 0 <= t < |l.dates| => ChangeRowAt(l, t))
  }

  predicate Complete(row: ChangeRow) {
    && (forall k :: 0 <= k < |row.pct| ==> row.pct[k].Some?)
    && (forall k :: 0 <= k < |row.abs| ==> row.abs[k].Some?)
  }

  function Settle(row: ChangeRow): (m: MarketMove)
    requires Complete(row)
    ensures m.date == row.date && |m.pct| == |row.pct| && |m.abs| == |row.abs|
    ensures forall k :: 0 <= k < |row.pct| ==> row.pct[k] == Some(m.pct[k])
    ensures forall k :: 0 <= k < |row.abs| ==> row.abs[k] == Some(m.abs[k])
  {
    MarketMove(row.date,
               seq(|row.pct|, k requires 0 <= k < |row.pct| => row.pct[k].value),
               seq(|row.abs|, k requires 0 <= k < |row.abs| => row.abs[k].value))
  }

  /** `dropna()`: the complete rows, in order, and nothing else. */
  function DropNa(rows: seq<ChangeRow>): (out: seq<MarketMove>)
    ensures |out| <= |rows|
    ensures forall m :: m in out <==> exists t :: 0 <= t < |rows| && Complete(rows[t]) && m == Settle(rows[t])
  {
    if rows == [] then []
    else
      var rest := DropNa(rows[1..]);
      assert forall t :: 1 <= t < |rows| ==> rows[1..][t - 1] == rows[t];
      if Complete(rows[0]) then [Settle(rows[0])] + rest else rest
  }

  /** `dropna()` keeps order and multiplicity: dropping from a concatenation
      is concatenating what is kept of each part, and a single row is kept,
      once, exactly when it is complete. */
  lemma {:induction false} DropNaAppend(a: seq<ChangeRow>, b: seq<ChangeRow>)
    ensures DropNa(a + b) == DropNa(a) + DropNa(b)
    ensures forall r :: DropNa([r]) == if Complete(r) then [Settle(r)] else []
  {
    forall r ensures DropNa([r]) == if Complete(r) then [Settle(r)] else [] {
      assert [r][1..] == [];
    }
    if a == [] {
      assert a + b == b;
    } else {
      assert (a + b)[1..] == a[1..] + b;
      assert (a + b)[0] == a[0];
      DropNaAppend(a[1..], b);
    }
  }

  /** With at least one instrument, a change row is complete exactly when
      every instrument has a level on that row and on the row before. */
  lemma CompleteIff(l: LevelTable, t: nat)
    requires NonZero(l) && t < |l.dates| && |l.columns| > 0
    ensures Complete(ChangeRowAt(l, t)) <==>
              t >= 1 && forall k :: 0 <= k < |l.columns| ==> l.columns[k][t - 1].Some? && l.columns[k][t].Some?
  {
    var row := ChangeRowAt(l, t);
    if Complete(row) {
      assert row.abs[0].Some?;
      forall k | 0 <= k < |l.columns| ensures l.columns[k][t - 1].Some? && l.columns[k][t].Some? {
        assert row.abs[k].Some?;
      }
    }
  }

  /** The first row index from `t` on whose change row is complete, or the
      row count if there is none. */
  function FirstComplete(l: LevelTable, t: nat): (s: nat)
    requires NonZero(l) && t <= |l.dates|
    ensures t <= s <= |l.dates|
    ensures forall u :: t <= u < s ==> !Complete(ChangeRowAt(l, u))
    ensures s < |l.dates| ==> Complete(ChangeRowAt(l, s))
    decreases |l.dates| - t
  {
    if t == |l.dates| then t
    else if Complete(ChangeRowAt(l, t)) then t
    else FirstComplete(l, t + 1)
  }

  /** On a forward-filled table, completeness persists: every row after a
      complete one is complete. */
  lemma {:induction false} CompletePersists(l: LevelTable, s: nat, u: nat)
    requires NonZero(l) && ForwardFilled(l) && |l.columns| > 0
    requires s <= u < |l.dates|
    requires Complete(ChangeRowAt(l, s))
    ensures Complete(ChangeRowAt(l, u))
    decreases u - s
  {
    if u > s {
      CompletePersists(l, s, u - 1);
      CompleteIff(l, u - 1);
      CompleteIff(l, u);
    }
  }

  lemma {:induction false} DropNaSplit(rows: seq<ChangeRow>, s: nat)
    requires s <= |rows|
    requires forall u :: 0 <= u < s ==> !Complete(rows[u])
    requires forall u :: s <= u < |rows| ==> Complete(rows[u])
    ensures |DropNa(rows)| == |rows| - s
    ensures forall i :: 0 <= i < |rows| - s ==> Complete(rows[s + i]) && DropNa(rows)[i] == Settle(rows[s + i])
  {
    if rows != [] {
      var tail := rows[1..];
      assert forall u :: 1 <= u < |rows| ==> tail[u - 1] == rows[u];
      if s > 0 {
        DropNaSplit(tail, s - 1);
      } else {
        DropNaSplit(tail, 0);
      }
    }
  }

  /** `market_moves` after `dropna`. The rows kept form a contiguous run: all
      rows from the first complete one to the end, so the result is a suffix
      of the level table turned into changes, with one change of each kind per
      instrument on every row. */
  function Moves(l: LevelTable): (ms: seq<MarketMove>)
    requires NonZero(l) && ForwardFilled(l) && |l.columns| > 0
    ensures var s := FirstComplete(l, 0);
            && |ms| == |l.dates| - s
            && (forall t :: s <= t < |l.dates| ==> Complete(ChangeRowAt(l, t)))
            && forall i :: 0 <= i < |ms| ==>
                 && ms[i] == Settle(ChangeRowAt(l, s + i))
                 && ms[i].date == l.dates[s + i]
                 && |ms[i].pct| == |ms[i].abs| == |l.columns|
  {
    var s := FirstComplete(l, 0);
    var rows := ChangeTable(l);
    forall u | s <= u < |rows| ensures Complete(rows[u]) {
      CompletePersists(l, s, u);
    }
    DropNaSplit(rows, s);
    var ms := DropNa(rows);
    forall t | s <= t < |l.dates| ensures Complete(ChangeRowAt(l, t)) {
      assert rows[t] == ChangeRowAt(l, t);
    }
    forall i | 0 <= i < |ms|
      ensures ms[i] == Settle(ChangeRowAt(l, s + i))
      ensures ms[i].date == l.dates[s + i] && |ms[i].pct| == |ms[i].abs| == |l.columns|
    {
      assert rows[s + i] == ChangeRowAt(l, s + i);
    }
    ms
  }

  /** The returned dates are dates of the level table, in the same strictly
      ascending order. */
  lemma MovesDates(l: LevelTable)
    requires NonZero(l) && ForwardFilled(l) && |l.columns| > 0
    requires StrictlyIncreasing(l.dates)
    ensures forall i :: 0 <= i < |Moves(l)| ==> Moves(l)[i].date in l.dates
    ensures forall i, j :: 0 <= i < j < |Moves(l)| ==> Before(Moves(l)[i].date, Moves(l)[j].date)
  {
    var s := FirstComplete(l, 0);
    var ms := Moves(l);
    forall i | 0 <= i < |ms| ensures ms[i].date in l.dates {
      assert ms[i].date == l.dates[s + i];
    }
  }

  datatype MarketError = NoSheets

  /** `load_market_data` on the workbook's sheets (in workbook order). An
      empty workbook fails at `instruments[0]`. Otherwise every returned row
      has one percentage and one absolute change per sheet, the dates are
      strictly ascending, and each is a date of some sheet. */
  function LoadMarketData(sheets: seq<Sheet>): (r: Result<seq<MarketMove>, MarketError>)
    requires forall k :: 0 <= k < |sheets| ==> DistinctDates(sheets[k]) && NonZeroPrices(sheets[k])
    ensures r.Failure? <==> sheets == []
    ensures r.Success? ==> forall i :: 0 <= i < |r.value| ==>
              |r.value[i].pct| == |r.value[i].abs| == |sheets|
    ensures r.Success? ==> forall i, j :: 0 <= i < j < |r.value| ==> Before(r.value[i].date, r.value[j].date)
    ensures r.Success? ==> forall i :: 0 <= i < |r.value| ==>
              exists k :: 0 <= k < |sheets| && InSheet(sheets[k], r.value[i].date)
  {
    if sheets == [] then Failure(NoSheets)
    else
      var l := Levels(sheets);
      MovesDates(l);
      Success(Moves(l))
  }

  // ---- Reconstructing the levels ----

  /** `start` plus every absolute change of instrument `k` in `ms`. */
  function Accumulate(start: real, ms: seq<MarketMove>, k: nat): real
    requires forall i :: 0 <= i < |ms| ==> k < |ms[i].abs|
  {
    if ms == [] then start else Accumulate(start, ms[..|ms| - 1], k) + ms[|ms| - 1].abs[k]
  }

  /** `start` compounded by every percentage change of instrument `k` in `ms`. */
  function Compound(start: real, ms: seq<MarketMove>, k: nat): real
    requires forall i :: 0 <= i < |ms| ==> k < |ms[i].pct|
  {
    if ms == [] then start else Compound(start, ms[..|ms| - 1], k) * (1.0 + ms[|ms| - 1].pct[k])
  }

  function ProdPct(ms: seq<MarketMove>, k: nat): real
    requires forall i :: 0 <= i < |ms| ==> k < |ms[i].pct|
  {
    if ms == [] then 1.0 else ProdPct(ms[..|ms| - 1], k) * (1.0 + ms[|ms| - 1].pct[k])
  }

  /** Compounding step by step is scaling by the product of the growth
      factors. */
  lemma {:induction false} CompoundIsProduct(start: real, ms: seq<MarketMove>, k: nat)
    requires forall i :: 0 <= i < |ms| ==> k < |ms[i].pct|
    ensures Compound(start, ms, k) == start * ProdPct(ms, k)
  {
    if ms != [] {
      var init := ms[..|ms| - 1];
      var step := 1.0 + ms[|ms| - 1].pct[k];
      CompoundIsProduct(start, init, k);
      assert (start * ProdPct(init, k)) * step == start * (ProdPct(init, k) * step);
    }
  }

  lemma CompoundStep(start: real, ms: seq<MarketMove>, k: nat, i: nat)
    requires forall j :: 0 <= j < |ms| ==> k < |ms[j].pct|
    requires i < |ms|
    ensures Compound(start, ms[..i + 1], k) == Compound(start, ms[..i], k) * (1.0 + ms[i].pct[k])
  {
    assert ms[..i + 1][..i] == ms[..i];
  }

  /** The level at row `t` of a column is the level at row `t - 1` plus the
      absolute change of instrument `k` in `m`. */
  predicate StepsInto(col: seq<Option<real>>, t: int, m: MarketMove, k: nat) {
    && 1 <= t < |col| && col[t - 1].Some? && col[t].Some? && k < |m.abs|
    && col[t].value == col[t - 1].value + m.abs[k]
  }

  /** One retained row: its absolute change steps the level of the row before
      to the level of its own row; stated for the `j`-th returned row, which
      sits at level-table row `FirstComplete(l, 0) + j`. */
  lemma AbsStep(l: LevelTable, k: nat, j: nat)
    requires NonZero(l) && ForwardFilled(l) && k < |l.columns|
    requires j < |Moves(l)|
    ensures StepsInto(l.columns[k], FirstComplete(l, 0) + j, Moves(l)[j], k)
  {
    var t := FirstComplete(l, 0) + j;
    var row := ChangeRowAt(l, t);
    assert Complete(row);
    CompleteIff(l, t);
    assert Moves(l)[j] == Settle(row);
    assert row.abs[k] == Diff(l.columns[k], t);
  }

  /** The level at row `t` of a column is the level at row `t - 1` grown by
      the percentage change of instrument `k` in `m`. */
  predicate GrowsInto(col: seq<Option<real>>, t: int, m: MarketMove, k: nat) {
    && 1 <= t < |col| && col[t - 1].Some? && col[t].Some? && k < |m.pct|
    && col[t].value == col[t - 1].value * (1.0 + m.pct[k])
  }

  /** The same row's percentage change grows the level of the row before into
      the level of its own row; stated for the `j`-th returned row, which
      sits at level-table row `FirstComplete(l, 0) + j`. */
  lemma PctStep(l: LevelTable, k: nat, j: nat)
    requires NonZero(l) && ForwardFilled(l) && k < |l.columns|
    requires j < |Moves(l)|
    ensures GrowsInto(l.columns[k], FirstComplete(l, 0) + j, Moves(l)[j], k)
  {
    var t := FirstComplete(l, 0) + j;
    var row := ChangeRowAt(l, t);
    assert Complete(row);
    CompleteIff(l, t);
    assert Moves(l)[j] == Settle(row);
    assert row.pct[k] == PctChange(l.columns[k], t);
  }

  /** On any column whose level at `s + j` is the level at `s + j - 1` plus
      the `j`-th absolute change, adding the first `i + 1` changes to the
      level at `s - 1` gives the level at `s + i`. */
  lemma {:induction false} AccumulateAlong(col: seq<Option<real>>, s: nat, ms: seq<MarketMove>, k: nat, i: nat)
    requires s >= 1 && s + |ms| <= |col| && i < |ms|
    requires forall j :: 0 <= j < |ms| ==> k < |ms[j].abs|
    requires forall j :: 0 <= j < |ms| ==> StepsInto(col, s + j, ms[j], k)
    ensures col[s - 1].Some? && col[s + i].Some?
    ensures col[s + i].value == Accumulate(col[s - 1].value, ms[..i + 1], k)
  {
    assert StepsInto(col, s + 0, ms[0], k);
    assert StepsInto(col, s + i, ms[i], k);
    assert ms[..i + 1][..i] == ms[..i];
    if i == 0 {
      assert ms[..0] == [];
    } else {
      AccumulateAlong(col, s, ms, k, i - 1);
    }
  }

  /** Starting from the level on the row before the first retained row,
      adding the absolute changes of the retained rows one after another
      gives back every later level. */
  lemma AbsChangesRebuildLevels(l: LevelTable, k: nat, i: nat)
    requires NonZero(l) && ForwardFilled(l) && k < |l.columns|
    requires i < |Moves(l)|
    ensures var s := FirstComplete(l, 0);
            && s >= 1
            && l.columns[k][s - 1].Some? && l.columns[k][s + i].Some?
            && l.columns[k][s + i].value == Accumulate(l.columns[k][s - 1].value, Moves(l)[..i + 1], k)
  {
    var s := FirstComplete(l, 0);
    var ms := Moves(l);
    var col := l.columns[k];
    forall j | 0 <= j < |ms| ensures StepsInto(col, s + j, ms[j], k) {
      AbsStep(l, k, j);
    }
    assert StepsInto(col, s + 0, ms[0], k);
    assert |col| == |l.dates| == s + |ms|;
    AccumulateAlong(col, s, ms, k, i);
  }

  /** On any column whose level at `s + j` is the level at `s + j - 1`
      grown by the `j`-th percentage change, compounding the level at
      `s - 1` by the first `i + 1` changes gives the level at `s + i`. */
  lemma {:induction false} CompoundAlong(col: seq<Option<real>>, s: nat, ms: seq<MarketMove>, k: nat, i: nat)
    requires s >= 1 && s + |ms| <= |col| && i < |ms|
    requires forall j :: 0 <= j < |ms| ==> k < |ms[j].pct|
    requires forall j :: 0 <= j < |ms| ==> GrowsInto(col, s + j, ms[j], k)
    ensures col[s - 1].Some? && col[s + i].Some?
    ensures col[s + i].value == Compound(col[s - 1].value, ms[..i + 1], k)
  {
    assert GrowsInto(col, s + 0, ms[0], k);
    var start := col[s - 1].value;
    assert GrowsInto(col, s + i, ms[i], k);
    CompoundStep(start, ms, k, i);
    if i == 0 {
      assert ms[..0] == [];
    } else {
      CompoundAlong(col, s, ms, k, i - 1);
    }
  }

  /** Likewise, compounding that starting level by the percentage changes of
      the retained rows gives back every later level. */
  lemma PctChangesRebuildLevels(l: LevelTable, k: nat, i: nat)
    requires NonZero(l) && ForwardFilled(l) && k < |l.columns|
    requires i < |Moves(l)|
    ensures var s := FirstComplete(l, 0);
            && s >= 1
            && l.columns[k][s - 1].Some? && l.columns[k][s + i].Some?
            && l.columns[k][s + i].value == Compound(l.columns[k][s - 1].value, Moves(l)[..i + 1], k)
  {
    var s := FirstComplete(l, 0);
    var ms := Moves(l);
    var col := l.columns[k];
    forall j | 0 <= j < |ms| ensures GrowsInto(col, s + j, ms[j], k) {
      PctStep(l, k, j);
    }
    assert GrowsInto(col, s + 0, ms[0], k);
    assert |col| == |l.dates| == s + |ms|;
    CompoundAlong(col, s, ms, k, i);
  }
}

=== FILE: outcomes.dfy ===
/** Missing values and error results shared by the whole model.

    `Option` stands for a pandas cell that may be missing (NaN, NaT, None);
    `Result` stands for an operation that either produces a value or raises. */
module Outcomes {

  datatype Option<+T> = None | Some(value: T)

  datatype Result<+T, +E> = Success(value: T) | Failure(error: E)
}

=== FILE: score_changes.dfy ===
/** The hawkishness change series built in `perform_market_analysis`: each
    scored document gets a date from its file name, the change of its score
    from the document listed before it (absolute and relative), and the rows
    that end up with a missing value are dropped. */
module ScoreChanges {
  import opened Outcomes
  import opened Calendar
  import DateExtraction

  /** One row of a saved score table: file name and weighted score. */
  datatype ScoredDoc = ScoredDoc(filename: string, score: real)

  /** Which file-name date extractor is applied: the one of `results.py`
      (eight digits only) or the one of `regression_analysis.py` (eight
      digits, else `YYYY-MM-DD`). */
  datatype DateRule = CompactOnly | CompactOrDashed

  function DocDate(rule: DateRule, filename: string): Option<Date> {
    match rule
    case CompactOnly => DateExtraction.ExtractDate(filename)
    case CompactOrDashed => DateExtraction.ExtractDateOrDashed(filename)
  }

  /** The `Date` column, one entry per document, read from its file name by
      the rule in force. A document gets a date only from a valid match of a
      pattern its rule reads, and always gets none when no such pattern
      matches its name. */
  function Dates(rule: DateRule, docs: seq<ScoredDoc>): (dates: seq<Option<Date>>)
    ensures |dates| == |docs|
    ensures forall i :: 0 <= i < |docs| ==> dates[i] == DocDate(rule, docs[i].filename)
    ensures forall i :: 0 <= i < |docs| && dates[i].Some? ==>
              && IsValid(dates[i].value)
              && (|| DateExtraction.HasMatch(DateExtraction.Compact, docs[i].filename)
                  || (rule == CompactOrDashed && DateExtraction.HasMatch(DateExtraction.Dashed, docs[i].filename)))
    ensures forall i :: 0 <= i < |docs| && !DateExtraction.HasMatch(DateExtraction.Compact, docs[i].filename)
                        && (rule == CompactOnly || !DateExtraction.HasMatch(DateExtraction.Dashed, docs[i].filename)) ==>
              dates[i] == None
  {
    seq(|docs|, i requires 0 <= i < |docs| => DocDate(rule, docs[i].filename))
  }

  /** A row that survives `dropna`. */
  datatype ToneChange = ToneChange(filename: string, score: real, date: Date, abs: real, pct: real)

  /** Row `t` after `diff()`, `pct_change()` and the replacement of infinite
      relative changes by NA. The change is taken from the row listed just
      before, whatever its date. The row is kept exactly when it is not the
      first, it has a date, and the previous score is non-zero (a zero
      previous score makes the relative change infinite, or undefined when the
      score stays zero). A kept row's absolute change steps the previous
      score to its own. */
  function ChangeAt(dates: seq<Option<Date>>, docs: seq<ScoredDoc>, t: nat): (r: Option<ToneChange>)
    requires |dates| == |docs| && t < |docs|
    ensures r.Some? <==> t >= 1 && dates[t].Some? && docs[t - 1].score != 0.0
    ensures r.Some? ==>
              && r.value.filename == docs[t].filename && r.value.score == docs[t].score
              && Some(r.value.date) == dates[t]
              && docs[t].score == docs[t - 1].score + r.value.abs
  {
    if t >= 1 && dates[t].Some? && docs[t - 1].score != 0.0 then
      var prev := docs[t - 1].score;
      var cur := docs[t].score;
      Some(ToneChange(docs[t].filename, cur, dates[t].value, cur - prev, cur / prev - 1.0))
    else None
  }

  /** A kept row's relative change grows the previous score into its own. */
  lemma PctChangeCompounds(dates: seq<Option<Date>>, docs: seq<ScoredDoc>, t: nat)
    requires |dates| == |docs| && t < |docs| && ChangeAt(dates, docs, t).Some?
    ensures docs[t].score == docs[t - 1].score * (1.0 + ChangeAt(dates, docs, t).value.pct)
  {
    var prev := docs[t - 1].score;
    var cur := docs[t].score;
    assert (cur / prev) * prev == cur;
  }

  function ChangesFrom(dates: seq<Option<Date>>, docs: seq<ScoredDoc>, t: nat): (out: seq<ToneChange>)
    requires |dates| == |docs| && t <= |docs|
    ensures |out| <= |docs| - t
    decreases |docs| - t
  {
    if t == |docs| then []
    else
      var rest := ChangesFrom(dates, docs, t + 1);
      match ChangeAt(dates, docs, t)
      case Some(c) => [c] + rest
      case None => rest
  }

  /** The rows a kept-or-dropped change contributes: itself, or nothing. */
  function Kept(c: Option<ToneChange>): (out: seq<ToneChange>)
    ensures |out| <= 1
    ensures forall x :: x in out <==> c == Some(x)
  {
    match c
    case Some(x) => [x]
    case None => []
  }

  /** Listing one more document leaves the changes of the earlier documents
      as they were, in the same order, and appends at most the new
      document's own change. */
  lemma {:induction false} ChangesFromSnoc(dates: seq<Option<Date>>, docs: seq<ScoredDoc>,
                                          x: Option<Date>, d: ScoredDoc, t: nat)
    requires |dates| == |docs| && t <= |docs|
    ensures ChangesFrom(dates + [x], docs + [d], t)
            == ChangesFrom(dates, docs, t) + Kept(ChangeAt(dates + [x], docs + [d], |docs|))
    decreases |docs| - t
  {
    var dates', docs' := dates + [x], docs + [d];
    if t == |docs| {
      assert ChangesFrom(dates', docs', t + 1) == [];
      match ChangeAt(dates', docs', t)
      case Some(c) =>
      case None =>
    } else {
      ChangesFromSnoc(dates, docs, x, d, t + 1);
      assert dates'[t] == dates[t] && docs'[t] == docs[t];
      assert t >= 1 ==> docs'[t - 1] == docs[t - 1];
      assert ChangeAt(dates', docs', t) == ChangeAt(dates, docs, t);
      match ChangeAt(dates, docs, t)
      case Some(c) =>
      case None =>
    }
  }

  lemma {:induction false} ChangesFromMembers(dates: seq<Option<Date>>, docs: seq<ScoredDoc>, t: nat)
    requires |dates| == |docs| && t <= |docs|
    ensures forall c :: c in ChangesFrom(dates, docs, t) <==>
              exists u :: t <= u < |docs| && ChangeAt(dates, docs, u) == Some(c)
    decreases |docs| - t
  {
    if t < |docs| {
      ChangesFromMembers(dates, docs, t + 1);
    }
  }

  /** The score table after the change columns are added and `dropna` is
      applied: exactly the rows `ChangeAt` keeps, in the listing order. */
  function ToneChanges(rule: DateRule, docs: seq<ScoredDoc>): (out: seq<ToneChange>)
    ensures |out| <= |docs|
    ensures forall c :: c in out <==>
              exists u :: 0 <= u < |docs| && ChangeAt(Dates(rule, docs), docs, u) == Some(c)
  {
    ChangesFromMembers(Dates(rule, docs), docs, 0);
    ChangesFrom(Dates(rule, docs), docs, 0)
  }

  /** The change table keeps listing order: adding a document at the end of
      the listing appends at most that document's change to the table of the
      documents before it. */
  lemma ToneChangesSnoc(rule: DateRule, docs: seq<ScoredDoc>, d: ScoredDoc)
    ensures ToneChanges(rule, docs + [d])
            == ToneChanges(rule, docs) + Kept(ChangeAt(Dates(rule, docs + [d]), docs + [d], |docs|))
  {
    assert Dates(rule, docs + [d]) == Dates(rule, docs) + [DocDate(rule, d.filename)];
    ChangesFromSnoc(Dates(rule, docs), docs, DocDate(rule, d.filename), d, 0);
  }

  /** The first listed document never has a change: when there is at most
      one document the change table is empty. */
  lemma FirstRowDropped(rule: DateRule, docs: seq<ScoredDoc>)
    requires |docs| <= 1
    ensures ToneChanges(rule, docs) == []
  {
    if |docs| == 1 {
      var dates := Dates(rule, docs);
      assert ChangeAt(dates, docs, 0).None?;
      assert ChangesFrom(dates, docs, 1) == [];
    }
  }

  /** When every row has a date and no score but possibly the last is zero,
      nothing from row `t` on is dropped. */
  lemma {:induction false} NothingDroppedFrom(dates: seq<Option<Date>>, docs: seq<ScoredDoc>, t: nat)
    requires |dates| == |docs| && 1 <= t <= |docs|
    requires forall u :: 0 <= u < |docs| ==> dates[u].Some?
    requires forall u :: 0 <= u < |docs| - 1 ==> docs[u].score != 0.0
    ensures |ChangesFrom(dates, docs, t)| == |docs| - t
    ensures forall i :: 0 <= i < |docs| - t ==> Some(ChangesFrom(dates, docs, t)[i]) == ChangeAt(dates, docs, t + i)
    decreases |docs| - t
  {
    if t < |docs| {
      NothingDroppedFrom(dates, docs, t + 1);
      var c := ChangeAt(dates, docs, t);
      assert c.Some?;
      var rest := ChangesFrom(dates, docs, t + 1);
      var out := ChangesFrom(dates, docs, t);
      assert out == [c.value] + rest;
      forall i | 0 <= i < |docs| - t ensures Some(out[i]) == ChangeAt(dates, docs, t + i) {
        if i > 0 {
          assert out[i] == rest[i - 1];
          assert t + 1 + (i - 1) == t + i;
        }
      }
    }
  }

  /** When every file name yields a date and no score but possibly the last is
      zero, only the first row is lost: row `i` of the result is the change
      from document `i` to document `i + 1`. */
  lemma OnlyFirstRowDropped(rule: DateRule, docs: seq<ScoredDoc>)
    requires |docs| >= 1
    requires forall u :: 0 <= u < |docs| ==> DocDate(rule, docs[u].filename).Some?
    requires forall u :: 0 <= u < |docs| - 1 ==> docs[u].score != 0.0
    ensures |ToneChanges(rule, docs)| == |docs| - 1
    ensures forall i :: 0 <= i < |docs| - 1 ==>
              Some(ToneChanges(rule, docs)[i]) == ChangeAt(Dates(rule, docs), docs, i + 1)
  {
    var dates := Dates(rule, docs);
    assert forall u :: 0 <= u < |docs| ==> dates[u].Some?;
    AllButFirstKept(dates, docs);
  }

  /** `OnlyFirstRowDropped` on a given date column. */
  lemma AllButFirstKept(dates: seq<Option<Date>>, docs: seq<ScoredDoc>)
    requires |dates| == |docs| && |docs| >= 1
    requires forall u :: 0 <= u < |docs| ==> dates[u].Some?
    requires forall u :: 0 <= u < |docs| - 1 ==> docs[u].score != 0.0
    ensures |ChangesFrom(dates, docs, 0)| == |docs| - 1
    ensures forall i :: 0 <= i < |docs| - 1 ==> Some(ChangesFrom(dates, docs, 0)[i]) == ChangeAt(dates, docs, i + 1)
  {
    NothingDroppedFrom(dates, docs, 1);
    assert ChangeAt(dates, docs, 0).None?;
    assert ChangesFrom(dates, docs, 0) == ChangesFrom(dates, docs, 1);
  }

  /** A document whose name yields no date is dropped, but it still serves as
      the previous row of the next document. */
  lemma UndatedStillPrevious(dates: seq<Option<Date>>, docs: seq<ScoredDoc>, t: nat)
    requires |dates| == |docs| && 1 <= t < |docs| - 1
    requires dates[t].None? && dates[t + 1].Some? && docs[t].score != 0.0
    ensures ChangeAt(dates, docs, t).None?
    ensures ChangeAt(dates, docs, t + 1).Some?
    ensures ChangeAt(dates, docs, t + 1).value.abs == docs[t + 1].score - docs[t].score
  {
  }

  /** The two date rules give the same change table whenever every file name
      holds an eight-digit run. */
  lemma RulesAgreeOnCompactNames(docs: seq<ScoredDoc>)
    requires forall u :: 0 <= u < |docs| ==> DateExtraction.HasMatch(DateExtraction.Compact, docs[u].filename)
    ensures ToneChanges(CompactOnly, docs) == ToneChanges(CompactOrDashed, docs)
  {
    assert Dates(CompactOnly, docs) == Dates(CompactOrDashed, docs);
  }
}

=== FILE: text.dfy ===
/** The string handling the tone scorer relies on: Python's `str.isspace`,
    `str.lower`, `str.split()` with no separator, `str.strip()` and
    `collections.Counter` lookups, stated over `seq<char>`. */
module Text {

  /** The characters Python's `str.isspace` accepts; `split()` and `strip()`
      use exactly this set. */
  predicate IsSpace(c: char) {
    var n := c as int;
    || (9 <= n <= 13) || (28 <= n <= 32) || n == 0x85 || n == 0xA0 || n == 0x1680
    || (0x2000 <= n <= 0x200A) || n == 0x2028 || n == 0x2029 || n == 0x202F
    || n == 0x205F || n == 0x3000
  }

  predicate NoSpace(s: string) {
    forall k :: 0 <= k < |s| ==> !IsSpace(s[k])
  }

  predicate AllSpace(s: string) {
    forall k :: 0 <= k < |s| ==> IsSpace(s[k])
  }

  /** A token as `split()` produces it: non-empty and free of whitespace. */
  predicate IsToken(w: string) {
    w != [] && NoSpace(w)
  }

  predicate IsUpper(c: char) {
    var n := c as int;
    ('A' as int <= n <= 'Z' as int) || (0xC0 <= n <= 0xDE && n != 0xD7)
  }

  /** Lower-casing of one character (ASCII and Latin-1 capitals): a capital
      becomes the small letter 32 code points above it. */
  function LowerChar(c: char): (r: char)
    ensures IsSpace(r) <==> IsSpace(c)
    ensures !IsUpper(r)
    ensures !IsUpper(c) ==> r == c
    ensures IsUpper(c) ==> r as int == c as int + 32
  {
    if IsUpper(c) then (c as int + 32) as char else c
  }

  /** `s.lower()`: same length, every capital replaced by its small letter,
      whitespace left exactly where it was. */
  function Lower(s: string): (r: string)
    ensures |r| == |s|
    ensures forall k :: 0 <= k < |s| ==> (IsSpace(r[k]) <==> IsSpace(s[k]))
    ensures forall k :: 0 <= k < |s| ==> !IsUpper(r[k])
    ensures forall k :: 0 <= k < |s| && !IsUpper(s[k]) ==> r[k] == s[k]
    ensures forall k :: 0 <= k < |s| && IsUpper(s[k]) ==> r[k] as int == s[k] as int + 32
  {
    seq(|s|, k requires 0 <= k < |s| => LowerChar(s[k]))
  }

  /** Lower-casing twice is lower-casing once. */
  lemma LowerIdempotent(s: string)
    ensures Lower(Lower(s)) == Lower(s)
  {
    var r := Lower(s);
    forall k | 0 <= k < |s| ensures Lower(r)[k] == r[k] {
      assert !IsUpper(r[k]);
    }
  }

  /** Length of the run of non-whitespace characters at the front of `s`. */
  function WordLength(s: string): (n: nat)
    ensures n <= |s|
    ensures NoSpace(s[..n])
    ensures n < |s| ==> IsSpace(s[n])
    ensures s != [] && !IsSpace(s[0]) ==> n > 0
  {
    if s == [] || IsSpace(s[0]) then 0
    else
      var n := 1 + WordLength(s[1..]);
      assert s[..n] == [s[0]] + s[1..][..n - 1];
      n
  }

  /** `s.split()`: the maximal whitespace-free runs of `s`, left to right. */
  function Split(s: string): (tokens: seq<string>)
    ensures forall k :: 0 <= k < |tokens| ==> IsToken(tokens[k])
    ensures |tokens| <= |s|
    decreases |s|
  {
    if s == [] then []
    else if IsSpace(s[0]) then Split(s[1..])
    else
      var n := WordLength(s);
      [s[..n]] + Split(s[n..])
  }

  /** `" ".join(words)`. */
  function Join(words: seq<string>): string {
    if words == [] then []
    else if |words| == 1 then words[0]
    else words[0] + " " + Join(words[1..])
  }

  lemma WordLengthOfToken(w: string, rest: string)
    requires IsToken(w)
    requires rest == [] || IsSpace(rest[0])
    ensures WordLength(w + rest) == |w|
    decreases |w|
  {
    var s := w + rest;
    if |w| == 1 {
      assert s[1..] == rest;
    } else {
      assert s[1..] == w[1..] + rest;
      WordLengthOfToken(w[1..], rest);
    }
  }

  /** Splitting a space-joined list of tokens gives the tokens back. */
  lemma {:induction false} SplitJoin(words: seq<string>)
    requires forall k :: 0 <= k < |words| ==> IsToken(words[k])
    ensures Split(Join(words)) == words
  {
    if words == [] {
    } else if |words| == 1 {
      var w := words[0];
      WordLengthOfToken(w, []);
      assert w + [] == w;
      assert w[|w|..] == [];
      assert w[..|w|] == w;
    } else {
      var w := words[0];
      var tail := Join(words[1..]);
      var s := w + " " + tail;
      assert s == w + (" " + tail);
      WordLengthOfToken(w, " " + tail);
      assert s[..|w|] == w;
      assert s[|w|..] == " " + tail;
      assert (" " + tail)[1..] == tail;
      SplitJoin(words[1..]);
      assert words == [w] + words[1..];
    }
  }

  /** The first word of `a + rest` is the first word of `a` when that word
      ends inside `a`, and is all of `a` when `a` has no whitespace and `rest`
      starts with whitespace. */
  lemma {:induction false} WordLengthPrefix(a: string, rest: string)
    ensures WordLength(a) < |a| ==> WordLength(a + rest) == WordLength(a)
    ensures WordLength(a) == |a| && (rest == [] || IsSpace(rest[0])) ==> WordLength(a + rest) == |a|
  {
    if a != [] && !IsSpace(a[0]) {
      assert (a + rest)[1..] == a[1..] + rest;
      WordLengthPrefix(a[1..], rest);
    } else if a == [] {
      assert a + rest == rest;
    }
  }

  /** `split()` separates at every whitespace character: splitting around
      one gives the tokens of the left part followed by those of the right
      part. */
  lemma {:induction false} SplitAtSpace(a: string, c: char, b: string)
    requires IsSpace(c)
    ensures Split(a + [c] + b) == Split(a) + Split(b)
    decreases |a|
  {
    var s := a + [c] + b;
    if a == [] {
      assert s == [c] + b;
      assert s[1..] == b;
    } else if IsSpace(a[0]) {
      assert s[1..] == a[1..] + [c] + b;
      SplitAtSpace(a[1..], c, b);
    } else {
      var m := WordLength(a);
      assert s == a + ([c] + b);
      WordLengthPrefix(a, [c] + b);
      if m < |a| {
        assert s[..m] == a[..m];
        assert s[m..] == a[m..] + [c] + b;
        SplitAtSpace(a[m..], c, b);
      } else {
        assert s[..m] == a;
        assert s[m..] == [c] + b;
        assert ([c] + b)[1..] == b;
        assert Split([c] + b) == Split(b);
        assert a[..m] == a && a[m..] == [];
        assert Split(a) == [a];
      }
    }
  }

  /** A single token splits into itself. With `SplitAtSpace` this fixes the
      result of `split()` on every string. */
  lemma SplitToken(w: string)
    requires IsToken(w)
    ensures Split(w) == [w]
  {
    SplitJoin([w]);
  }

  /** How many entries of `words` equal `w` (`Counter(words).get(w, 0)`). */
  function Occurrences(words: seq<string>, w: string): (c: nat)
    ensures c <= |words|
    ensures c == multiset(words)[w]
  {
    if words == [] then 0
    else
      assert words == [words[0]] + words[1..];
      (if words[0] == w then 1 else 0) + Occurrences(words[1..], w)
  }

  /** A string that is not a token (empty, or holding whitespace, as a
      multi-word phrase does) never occurs among the tokens of any text. */
  lemma {:induction false} NonTokenNeverCounted(text: string, w: string)
    requires !IsToken(w)
    ensures Occurrences(Split(text), w) == 0
  {
    var tokens := Split(text);
    assert forall k :: 0 <= k < |tokens| ==> tokens[k] != w;
    assert w !in multiset(tokens);
  }

  function LeadingSpaces(s: string): (n: nat)
    ensures n <= |s|
    ensures AllSpace(s[..n])
    ensures n < |s| ==> !IsSpace(s[n])
  {
    if s == [] || !IsSpace(s[0]) then 0
    else
      var n := 1 + LeadingSpaces(s[1..]);
      assert s[..n] == [s[0]] + s[1..][..n - 1];
      n
  }

  function TrailingSpaces(s: string): (n: nat)
    ensures n <= |s|
    ensures AllSpace(s[|s| - n..])
    ensures n < |s| ==> !IsSpace(s[|s| - n - 1])
  {
    if s == [] || !IsSpace(s[|s| - 1]) then 0
    else
      var p := s[..|s| - 1];
      var n := 1 + TrailingSpaces(p);
      assert s[|s| - n..] == p[|p| - (n - 1)..] + [s[|s| - 1]];
      n
  }

  /** `s.strip()`: the infix of `s` left after removing whitespace from both
      ends. The result is empty exactly for all-whitespace input, otherwise it
      starts and ends with a non-whitespace character, and only whitespace was
      cut off on either side. */
  function Strip(s: string): (r: string)
    ensures r == [] <==> AllSpace(s)
    ensures r != [] ==> !IsSpace(r[0]) && !IsSpace(r[|r| - 1])
    ensures exists i :: 0 <= i <= |s| - |r| && s[i..i + |r|] == r
                        && AllSpace(s[..i]) && AllSpace(s[i + |r|..])
  {
    var i := LeadingSpaces(s);
    if i == |s| then
      assert s[..i] == s;
      assert s[0..0] == [];
      []
    else
      var t := TrailingSpaces(s);
      assert forall k :: |s| - t <= k < |s| ==> IsSpace(s[k]) by {
        forall k | |s| - t <= k < |s| ensures IsSpace(s[k]) {
          assert s[|s| - t..][k - (|s| - t)] == s[k];
        }
      }
      assert t < |s| - i;
      var r := s[i..|s| - t];
      assert !AllSpace(s) by { assert !IsSpace(s[i]); }
      assert s[i..i + |r|] == r;
      r
  }

  /** Stripping twice is stripping once. */
  lemma StripIdempotent(s: string)
    ensures Strip(Strip(s)) == Strip(s)
  {
    var r := Strip(s);
    if r != [] {
      assert LeadingSpaces(r) == 0;
      assert TrailingSpaces(r) == 0;
      assert r[0..|r|] == r;
    }
  }

  /** `s` ends with `suffix`. */
  predicate EndsWith(s: string, suffix: string) {
    |suffix| <= |s| && s[|s| - |suffix|..] == suffix
  }
}

=== FILE: tone_score.dfy ===
/** The dictionary tone scorer of `src/dictionary_based_analysis.py`
    (`get_hawkish_dovish_score`).

    Every lexicon term is counted in every `.txt` document, the counts are
    weighted by a custom TF-IDF, and each document's score is the sum over
    terms of `tf * idf * count`. The natural logarithm is a parameter `ln`
    of which only the laws in `IsLog` are assumed. */
module ToneScore {
  import opened Outcomes
  import opened Text

  /** What the scorer relies on about `math.log`, on the only arguments it
      ever receives (all at least 1): `ln(1) = 0`, monotone, positive
      above 1. */
  ghost predicate IsLog(ln: real -> real) {
    && ln(1.0) == 0.0
    && (forall x: real, y: real :: 1.0 <= x <= y ==> ln(x) <= ln(y))
    && (forall x: real :: 1.0 < x ==> 0.0 < ln(x))
  }

  /** A file of the corpus directory, in listing order. */
  datatype Document = Document(name: string, text: string)

  /** The returned frame: one column, indexed by file name. */
  datatype ScoreTable = ScoreTable(column: string, index: seq<string>, scores: seq<real>)

  /** pandas' "Length of values does not match length of index". */
  datatype ScoreError = LengthMismatch

  // ---- Inputs ----

  /** The lexicon terms: every line of the lexicon file, with surrounding
      whitespace stripped, in file order. */
  function Terms(lines: seq<string>): (terms: seq<string>)
    ensures |terms| == |lines|
  {
    seq(|lines|, j requires 0 <= j < |lines| => Strip(lines[j]))
  }

  predicate IsTxt(d: Document) {
    EndsWith(d.name, ".txt")
  }

  /** The documents of the listing whose names end in ".txt", in listing
      order. */
  function TxtFiles(files: seq<Document>): (docs: seq<Document>)
    ensures |docs| <= |files|
    ensures forall k :: 0 <= k < |docs| ==> IsTxt(docs[k])
    ensures forall d :: d in docs <==> d in files && IsTxt(d)
  {
    if files == [] then []
    else (if IsTxt(files[0]) then [files[0]] else []) + TxtFiles(files[1..])
  }

  /** Listing order is kept: filtering a concatenation is concatenating the
      filtered parts. */
  lemma {:induction false} TxtFilesAppend(a: seq<Document>, b: seq<Document>)
    ensures TxtFiles(a + b) == TxtFiles(a) + TxtFiles(b)
  {
    if a == [] {
      assert a + b == b;
    } else {
      assert (a + b)[1..] == a[1..] + b;
      TxtFilesAppend(a[1..], b);
    }
  }

  /** The words of a document: its text lower-cased, then split at
      whitespace. */
  function Tokens(text: string): seq<string> {
    Split(Lower(text))
  }

  /** Two lexicon lines that strip to the same string become one dict key. */
  predicate HasDuplicate(terms: seq<string>) {
    exists i, j | 0 <= i < j < |terms| :: terms[i] == terms[j]
  }

  // ---- Count matrix and total words ----

  /** Column `j` of a document's row is how often the lower-cased term `j`
      occurs among the document's tokens (zero when it does not occur). */
  function CountRow(terms: seq<string>, tokens: seq<string>): (row: seq<nat>)
    ensures |row| == |terms|
    ensures forall j :: 0 <= j < |terms| ==> row[j] == multiset(tokens)[Lower(terms[j])]
    ensures forall j :: 0 <= j < |terms| ==> row[j] <= |tokens|
  {
    seq(|terms|, j requires 0 <= j < |terms| => Occurrences(tokens, Lower(terms[j])))
  }

  datatype Counts = Counts(matrix: seq<seq<nat>>, totals: seq<nat>)

  /** Rows of `width` counts, each bounded by its document's word total. */
  predicate WellFormed(c: Counts, width: nat) {
    && |c.matrix| == |c.totals|
    && (forall i :: 0 <= i < |c.matrix| ==> |c.matrix[i]| == width)
    && (forall i, j :: 0 <= i < |c.matrix| && 0 <= j < width ==> c.matrix[i][j] <= c.totals[i])
  }

  /** The count table, one row of term counts per document, and each
      document's total number of words. */
  function CountMatrix(terms: seq<string>, docs: seq<Document>): (c: Counts)
    ensures WellFormed(c, |terms|) && |c.matrix| == |docs|
    ensures forall i :: 0 <= i < |docs| ==> c.totals[i] == |Tokens(docs[i].text)|
    ensures forall i, j :: 0 <= i < |docs| && 0 <= j < |terms| ==>
              c.matrix[i][j] == multiset(Tokens(docs[i].text))[Lower(terms[j])]
  {
    Counts(seq(|docs|, i requires 0 <= i < |docs| => CountRow(terms, Tokens(docs[i].text))),
           seq(|docs|, i requires 0 <= i < |docs| => |Tokens(docs[i].text)|))
  }

  /** A term that is not a single token after stripping (a multi-word phrase,
      or an empty line) counts 0 in every document. */
  lemma PhraseNeverCounted(terms: seq<string>, docs: seq<Document>, j: nat)
    requires j < |terms| && !IsToken(terms[j])
    ensures forall i :: 0 <= i < |docs| ==> CountMatrix(terms, docs).matrix[i][j] == 0
  {
    var w := Lower(terms[j]);
    assert !IsToken(w) by {
      if w != [] {
        var k :| 0 <= k < |terms[j]| && IsSpace(terms[j][k]);
        assert IsSpace(w[k]);
      }
    }
    forall i | 0 <= i < |docs| ensures CountMatrix(terms, docs).matrix[i][j] == 0 {
      NonTokenNeverCounted(Lower(docs[i].text), w);
    }
  }

  // ---- Document frequency ----

  /** The documents among the first `n` in which term `j` occurs. */
  function RowsWith(m: seq<seq<nat>>, n: nat, j: nat): set<nat>
    requires n <= |m|
    requires forall i :: 0 <= i < |m| ==> j < |m[i]|
  {
    set i: nat | i < n && m[i][j] > 0
  }

  lemma {:induction false} RowsWithBound(m: seq<seq<nat>>, n: nat, j: nat)
    requires n <= |m|
    requires forall i :: 0 <= i < |m| ==> j < |m[i]|
    ensures |RowsWith(m, n, j)| <= n
  {
    if n > 0 {
      RowsWithBound(m, n - 1, j);
      RowsWithStep(m, n - 1, j);
    }
  }

  lemma RowsWithStep(m: seq<seq<nat>>, n: nat, j: nat)
    requires n < |m|
    requires forall i :: 0 <= i < |m| ==> j < |m[i]|
    ensures m[n][j] > 0 ==> RowsWith(m, n + 1, j) == RowsWith(m, n, j) + {n}
    ensures m[n][j] > 0 ==> |RowsWith(m, n + 1, j)| == |RowsWith(m, n, j)| + 1
    ensures m[n][j] == 0 ==> RowsWith(m, n + 1, j) == RowsWith(m, n, j)
  {
    if m[n][j] > 0 {
      assert RowsWith(m, n + 1, j) == RowsWith(m, n, j) + {n};
      assert n !in RowsWith(m, n, j);
    } else {
      assert RowsWith(m, n + 1, j) == RowsWith(m, n, j);
    }
  }

  /** The document frequency of term `j`: the number of documents containing
      it. */
  function DocFreq(m: seq<seq<nat>>, j: nat): (df: nat)
    requires forall i :: 0 <= i < |m| ==> j < |m[i]|
    ensures df <= |m|
  {
    RowsWithBound(m, |m|, j);
    |RowsWith(m, |m|, j)|
  }

  // ---- The weights ----

  /** Term frequency of a cell: 0 for a zero count (the cell is left alone),
      else `(1 + ln(count)) / (1 + ln(total))`. The count never exceeds the
      total, so the denominator is at least 1 and the weight lies in (0, 1]. */
  function Tf(ln: real -> real, c: nat, total: nat): (r: real)
    requires IsLog(ln) && c <= total
    ensures 0.0 <= r <= 1.0
    ensures r > 0.0 <==> c > 0
  {
    if c == 0 then 0.0
    else
      var num := 1.0 + ln(c as real);
      var den := 1.0 + ln(total as real);
      assert 1.0 <= num <= den by {
        assert ln(1.0) <= ln(c as real) <= ln(total as real);
      }
      assert num / den <= 1.0 by {
        assert num / den * den == num;
      }
      num / den
  }

  /** Inverse document frequency among `n` documents: 0 when the term occurs
      nowhere, else `ln(n / df)`. It vanishes exactly when the term occurs in
      no document or in every document, and is positive otherwise. */
  function Idf(ln: real -> real, n: nat, df: nat): (r: real)
    requires IsLog(ln) && df <= n
    ensures r >= 0.0
    ensures r == 0.0 <==> df == 0 || df == n
  {
    if df == 0 then 0.0
    else
      var q := n as real / df as real;
      assert q * (df as real) == n as real;
      assert q >= 1.0;
      assert q == 1.0 <==> df == n;
      ln(q)
  }

  lemma ProductSign(a: real, b: real, c: real)
    requires a >= 0.0 && b >= 0.0 && c >= 0.0
    ensures a * b * c >= 0.0
    ensures a * b * c > 0.0 <==> a > 0.0 && b > 0.0 && c > 0.0
  {
    if a > 0.0 && b > 0.0 {
      assert a * b > 0.0;
    }
  }

  /** `(tf * idf * count).sum()` over one document's row. Every summand is
      non-negative, and the sum is 0 exactly when every term is either absent
      or carries idf 0. */
  function RowScore(ln: real -> real, row: seq<nat>, total: nat, idf: seq<real>): (s: real)
    requires IsLog(ln) && |idf| == |row|
    requires forall j :: 0 <= j < |row| ==> row[j] <= total && idf[j] >= 0.0
    ensures s >= 0.0
    ensures s == 0.0 <==> forall j :: 0 <= j < |row| ==> row[j] == 0 || idf[j] == 0.0
  {
    if row == [] then 0.0
    else
      var tf := Tf(ln, row[0], total);
      ProductSign(tf, idf[0], row[0] as real);
      var rest := RowScore(ln, row[1..], total, idf[1..]);
      assert forall j :: 1 <= j < |row| ==> row[1..][j - 1] == row[j] && idf[1..][j - 1] == idf[j];
      tf * idf[0] * (row[0] as real) + rest
  }

  /** What one term adds to a document's score. */
  function Contribution(ln: real -> real, c: nat, total: nat, w: real): real
    requires IsLog(ln) && c <= total
  {
    Tf(ln, c, total) * w * (c as real)
  }

  /** One step of the sum: the first term's contribution plus the score of
      the rest. */
  lemma RowScoreHead(ln: real -> real, row: seq<nat>, total: nat, idf: seq<real>)
    requires IsLog(ln) && |idf| == |row| && row != []
    requires forall j :: 0 <= j < |row| ==> row[j] <= total && idf[j] >= 0.0
    ensures RowScore(ln, row, total, idf)
            == Contribution(ln, row[0], total, idf[0]) + RowScore(ln, row[1..], total, idf[1..])
  {
  }

  /** A row's score is the sum, over its terms, of each term's own
      `tf * idf * count`: scoring a concatenation of terms adds the scores of
      the parts. */
  lemma {:induction false} RowScoreAppend(ln: real -> real, a: seq<nat>, b: seq<nat>, total: nat,
                                          ia: seq<real>, ib: seq<real>)
    requires IsLog(ln) && |ia| == |a| && |ib| == |b|
    requires forall j :: 0 <= j < |a| ==> a[j] <= total && ia[j] >= 0.0
    requires forall j :: 0 <= j < |b| ==> b[j] <= total && ib[j] >= 0.0
    ensures RowScore(ln, a + b, total, ia + ib) == RowScore(ln, a, total, ia) + RowScore(ln, b, total, ib)
    decreases |a|
  {
    if a == [] {
      assert a + b == b && ia + ib == ib;
    } else {
      var row, idf := a + b, ia + ib;
      assert forall j :: 0 <= j < |row| ==> row[j] <= total && idf[j] >= 0.0 by {
        forall j | 0 <= j < |row| ensures row[j] <= total && idf[j] >= 0.0 {
          if j < |a| {
            assert row[j] == a[j] && idf[j] == ia[j];
          } else {
            assert row[j] == b[j - |a|] && idf[j] == ib[j - |a|];
          }
        }
      }
      assert row[0] == a[0] && idf[0] == ia[0];
      assert row[1..] == a[1..] + b && idf[1..] == ia[1..] + ib;
      RowScoreHead(ln, row, total, idf);
      RowScoreHead(ln, a, total, ia);
      RowScoreAppend(ln, a[1..], b, total, ia[1..], ib);
    }
  }

  /** The contribution of one term: its tf, times its idf, times its raw
      count again. */
  lemma RowScoreSingle(ln: real -> real, c: nat, total: nat, w: real)
    requires IsLog(ln) && c <= total && w >= 0.0
    ensures RowScore(ln, [c], total, [w]) == Tf(ln, c, total) * w * (c as real)
  {
    assert [c][1..] == [] && [w][1..] == [];
  }

  // ---- The whole scorer ----

  function Column(polarity: string): string {
    "Weighted_" + polarity + "ish_Sum"
  }

  function Names(docs: seq<Document>): (names: seq<string>)
    ensures |names| == |docs|
    ensures forall i :: 0 <= i < |docs| ==> names[i] == docs[i].name
  {
    seq(|docs|, i requires 0 <= i < |docs| => docs[i].name)
  }

  function IdfRow(ln: real -> real, c: Counts, width: nat): (idf: seq<real>)
    requires IsLog(ln) && WellFormed(c, width)
    ensures |idf| == width
    ensures forall j :: 0 <= j < width ==> idf[j] >= 0.0
  {
    seq(width, j requires 0 <= j < width => Idf(ln, |c.matrix|, DocFreq(c.matrix, j)))
  }

  function Scores(ln: real -> real, c: Counts, width: nat): (scores: seq<real>)
    requires IsLog(ln) && WellFormed(c, width)
    ensures |scores| == |c.matrix|
  {
    var idf := IdfRow(ln, c, width);
    seq(|c.matrix|, i requires 0 <= i < |c.matrix| => RowScore(ln, c.matrix[i], c.totals[i], idf))
  }

  /** `get_hawkish_dovish_score` on the lexicon file's lines and the
      directory listing. It fails exactly when two lexicon lines strip to the
      same term and there is at least one `.txt` file; otherwise it has one
      non-negative score per `.txt` file, in listing order, under the column
      `Weighted_<polarity>ish_Sum`. */
  function Score(ln: real -> real, lines: seq<string>, files: seq<Document>, polarity: string)
    : (r: Result<ScoreTable, ScoreError>)
    requires IsLog(ln)
    ensures r.Failure? <==> HasDuplicate(Terms(lines)) && |TxtFiles(files)| > 0
    ensures r.Success? ==> r.value.column == "Weighted_" + polarity + "ish_Sum"
    ensures r.Success? ==> |r.value.index| == |r.value.scores| == |TxtFiles(files)|
    ensures r.Success? ==> forall i :: 0 <= i < |r.value.index| ==>
              r.value.index[i] == TxtFiles(files)[i].name && IsTxt(TxtFiles(files)[i])
    ensures r.Success? ==> forall i :: 0 <= i < |r.value.scores| ==> r.value.scores[i] >= 0.0
  {
    var terms := Terms(lines);
    var docs := TxtFiles(files);
    if HasDuplicate(terms) && |docs| > 0 then Failure(LengthMismatch)
    else
      var c := CountMatrix(terms, docs);
      Success(ScoreTable(Column(polarity), Names(docs), Scores(ln, c, |terms|)))
  }

  /** On a count table: row `i` scores 0 exactly when each of its terms is
      absent or present in every row. */
  lemma {:induction false} RowZeroIff(ln: real -> real, c: Counts, width: nat, i: nat)
    requires IsLog(ln) && WellFormed(c, width) && i < |c.matrix|
    ensures Scores(ln, c, width)[i] == 0.0
            <==> forall j :: 0 <= j < width ==> c.matrix[i][j] == 0 || DocFreq(c.matrix, j) == |c.matrix|
  {
    var idf := IdfRow(ln, c, width);
    assert Scores(ln, c, width)[i] == RowScore(ln, c.matrix[i], c.totals[i], idf);
    forall j | 0 <= j < width
      ensures (c.matrix[i][j] == 0 || idf[j] == 0.0)
              <==> (c.matrix[i][j] == 0 || DocFreq(c.matrix, j) == |c.matrix|)
    {
      if c.matrix[i][j] > 0 {
        assert i in RowsWith(c.matrix, |c.matrix|, j);
      }
    }
  }

  /** A document scores 0 exactly when each lexicon term is either absent
      from it or present in every document of the corpus. */
  lemma ScoreZeroIff(ln: real -> real, lines: seq<string>, files: seq<Document>,
                     polarity: string, i: nat)
    requires IsLog(ln)
    requires Score(ln, lines, files, polarity).Success?
    requires i < |TxtFiles(files)|
    ensures var c := CountMatrix(Terms(lines), TxtFiles(files));
            Score(ln, lines, files, polarity).value.scores[i] == 0.0
            <==> forall j :: 0 <= j < |lines| ==>
                   c.matrix[i][j] == 0 || DocFreq(c.matrix, j) == |TxtFiles(files)|
  {
    var c := CountMatrix(Terms(lines), TxtFiles(files));
    assert Score(ln, lines, files, polarity).value.scores == Scores(ln, c, |lines|);
    RowZeroIff(ln, c, |lines|, i);
  }

  /** A document in which some lexicon term occurs that is missing from
      another document scores strictly positive. */
  lemma RareTermScoresPositive(ln: real -> real, lines: seq<string>, files: seq<Document>,
                               polarity: string, i: nat, j: nat)
    requires IsLog(ln) && !HasDuplicate(Terms(lines))
    requires i < |TxtFiles(files)| && j < |lines|
    requires Lower(Strip(lines[j])) in Tokens(TxtFiles(files)[i].text)
    requires exists o :: 0 <= o < |TxtFiles(files)| && Lower(Strip(lines[j])) !in Tokens(TxtFiles(files)[o].text)
    ensures Score(ln, lines, files, polarity).Success?
    ensures Score(ln, lines, files, polarity).value.scores[i] > 0.0
  {
    var docs := TxtFiles(files);
    var c := CountMatrix(Terms(lines), docs);
    var w := Lower(Strip(lines[j]));
    assert c.matrix[i][j] > 0 by {
      assert w in multiset(Tokens(docs[i].text));
    }
    var o :| 0 <= o < |docs| && w !in Tokens(docs[o].text);
    assert c.matrix[o][j] == 0;
    assert Score(ln, lines, files, polarity).value.scores == Scores(ln, c, |lines|);
    RowPositive(ln, c, |lines|, i, j, o);
  }

  /** On a count table: a row holding a term that another row lacks scores
      strictly positive. */
  lemma RowPositive(ln: real -> real, c: Counts, width: nat, i: nat, j: nat, o: nat)
    requires IsLog(ln) && WellFormed(c, width) && i < |c.matrix| && o < |c.matrix| && j < width
    requires c.matrix[i][j] > 0 && c.matrix[o][j] == 0
    ensures Scores(ln, c, width)[i] > 0.0
  {
    RowsWithMissing(c.matrix, |c.matrix|, j, o);
    RowZeroIff(ln, c, width, i);
  }

  /** A row without term `j` keeps the term's document count below the row
      count. */
  lemma {:induction false} RowsWithMissing(m: seq<seq<nat>>, n: nat, j: nat, o: nat)
    requires o < n <= |m|
    requires forall i :: 0 <= i < |m| ==> j < |m[i]|
    requires m[o][j] == 0
    ensures |RowsWith(m, n, j)| < n
  {
    RowsWithStep(m, n - 1, j);
    if n - 1 == o {
      RowsWithBound(m, n - 1, j);
    } else {
      RowsWithMissing(m, n - 1, j, o);
    }
  }

  /** A document with no lexicon match scores exactly 0. */
  lemma NoMatchScoresZero(ln: real -> real, lines: seq<string>, files: seq<Document>,
                          polarity: string, i: nat)
    requires IsLog(ln)
    requires Score(ln, lines, files, polarity).Success?
    requires i < |TxtFiles(files)|
    requires forall j :: 0 <= j < |lines| ==> Lower(Strip(lines[j])) !in Tokens(TxtFiles(files)[i].text)
    ensures Score(ln, lines, files, polarity).value.scores[i] == 0.0
  {
    ScoreZeroIff(ln, lines, files, polarity, i);
  }

  /** With a single `.txt` file every term that occurs has idf `ln(1) = 0`,
      so the document scores 0. */
  lemma SingleDocumentScoresZero(ln: real -> real, lines: seq<string>, files: seq<Document>,
                                 polarity: string)
    requires IsLog(ln)
    requires Score(ln, lines, files, polarity).Success?
    requires |TxtFiles(files)| == 1
    ensures Score(ln, lines, files, polarity).value.scores == [0.0]
  {
    var c := CountMatrix(Terms(lines), TxtFiles(files));
    forall j | 0 <= j < |lines| && c.matrix[0][j] > 0
      ensures DocFreq(c.matrix, j) == 1
    {
      OnlyRowFrequency(c.matrix, j);
    }
    ScoreZeroIff(ln, lines, files, polarity, 0);
  }

  /** In a one-row table a term present in that row occurs in one row. */
  lemma OnlyRowFrequency(m: seq<seq<nat>>, j: nat)
    requires |m| == 1 && j < |m[0]| && m[0][j] > 0
    ensures DocFreq(m, j) == 1
  {
    assert RowsWith(m, 1, j) == {0};
  }

  // ---- The source's loop ----

  /** The tf values of one document's row. */
  function TfRowOf(ln: real -> real, c: Counts, width: nat, i: nat): (row: seq<real>)
    requires IsLog(ln) && WellFormed(c, width) && i < |c.matrix|
    ensures |row| == width
    ensures forall j :: 0 <= j < width ==> 0.0 <= row[j] <= 1.0
    ensures forall j :: 0 <= j < width ==> (row[j] > 0.0 <==> c.matrix[i][j] > 0)
  {
    seq(width, j requires 0 <= j < width => Tf(ln, c.matrix[i][j], c.totals[i]))
  }

  /** One pass of the inner loop over document `i`: its row of tf values, and
      the document frequencies extended by that document. */
  method TfRow(ln: real -> real, c: Counts, width: nat, i: nat, df: seq<nat>)
    returns (row: seq<real>, df': seq<nat>)
    requires IsLog(ln) && WellFormed(c, width) && i < |c.matrix|
    requires |df| == width
    requires forall j :: 0 <= j < width ==> df[j] == |RowsWith(c.matrix, i, j)|
    ensures |row| == width && |df'| == width
    ensures forall j :: 0 <= j < width ==> row[j] == Tf(ln, c.matrix[i][j], c.totals[i])
    ensures forall j :: 0 <= j < width ==> df'[j] == |RowsWith(c.matrix, i + 1, j)|
  {
    row := [];
    df' := df;
    var j := 0;
    while j < width
      invariant 0 <= j <= width
      invariant |row| == j && |df'| == width
      invariant forall j' :: 0 <= j' < j ==> row[j'] == Tf(ln, c.matrix[i][j'], c.totals[i])
      invariant forall j' :: 0 <= j' < j ==> df'[j'] == |RowsWith(c.matrix, i + 1, j')|
      invariant forall j' :: j <= j' < width ==> df'[j'] == df[j']
    {
      var count := c.matrix[i][j];
      RowsWithStep(c.matrix, i, j);
      var t := TfCell(ln, count, c.totals[i]);
      row := row + [t];
      if count > 0 {
        df' := df'[j := df'[j] + 1];
      }
      j := j + 1;
    }
  }

  /** One cell of the inner loop: a non-zero count is overwritten with its
      tf, a zero count stays zero. */
  method TfCell(ln: real -> real, count: nat, total: nat) returns (t: real)
    requires IsLog(ln) && count <= total
    ensures t == Tf(ln, count, total)
    ensures 0.0 <= t <= 1.0 && (t > 0.0 <==> count > 0)
  {
    if count > 0 {
      t := (1.0 + ln(count as real)) / (1.0 + ln(total as real));
    } else {
      t := 0.0;
    }
  }

  /** The nested loop that overwrites each non-zero count with its tf and
      counts, per term, the documents where it occurs. */
  method TfAndDocFreq(ln: real -> real, c: Counts, width: nat) returns (tf: seq<seq<real>>, df: seq<nat>)
    requires IsLog(ln) && WellFormed(c, width)
    ensures |tf| == |c.matrix| && |df| == width
    ensures forall i :: 0 <= i < |tf| ==> tf[i] == TfRowOf(ln, c, width, i)
    ensures forall j :: 0 <= j < width ==> df[j] == DocFreq(c.matrix, j)
  {
    tf := [];
    df := seq(width, _ => 0);
    forall j | 0 <= j < width ensures df[j] == |RowsWith(c.matrix, 0, j)| {
      assert RowsWith(c.matrix, 0, j) == {};
    }
    var i := 0;
    while i < |c.matrix|
      invariant 0 <= i <= |c.matrix|
      invariant |tf| == i && |df| == width
      invariant forall i' :: 0 <= i' < i ==> tf[i'] == TfRowOf(ln, c, width, i')
      invariant forall j :: 0 <= j < width ==> df[j] == |RowsWith(c.matrix, i, j)|
    {
      var row;
      row, df := TfRow(ln, c, width, i, df);
      assert row == TfRowOf(ln, c, width, i);
      tf := tf + [row];
      i := i + 1;
    }
  }
}
